=== FILE: README.md ===
# Snake with an A* autopilot: a Dafny model

This project models the logic of a snake game played on a wrap-around
grid of 64 columns by 36 rows. When autopilot mode is on, the snake is
steered by an A* search. The model covers four parts of the program, as
pure functions and small methods over immutable data:

- **The geometry of the grid** (`utils.dfy`, modules `Constants` and `Utils`):
  - the `wrap_x!`/`wrap_y!` macros, which use Rust's truncating remainder;
  - the `Vector` coordinate with its arithmetic and equality;
  - the `Block` grid cell and the `Map` grid;
  - the four `Direction`s and their reversal.
- **The A\* search** (`astar.dfy`, module `AStar`):
  - the wrap-around Manhattan heuristic;
  - neighbour enumeration;
  - the minimum-`f` pick and the `g` comparison on the open set;
  - relaxation and its write-back into the grid;
  - `find_path`, which runs the search loop and then walks the parent pointers back from the destination.
- **The snake** (`snake.dfy`, module `SnakeRules`):
  - choosing a heading towards the next cell of the route;
  - the no-reversal rule;
  - shifting the body and moving the head with wrap-around;
  - the collision tests and growth.
- **The game tick** (`game.dfy`, module `GameRules`):
  - the occupancy grid built from the snake's body;
  - the decisions of one update: ask for a route when one is due, move, eat and respawn the food, and end the game on a self-collision.

Rust's `%` truncates toward zero, while Dafny's `%` is Euclidean, so the
model writes Rust's operator out as `Utils.RustRem`. The constants are the
source's constants: the window is 1920 by 1080 pixels, a cell is 30 pixels, and the head moves one cell per tick.

**Mutable state.** The search mutates the grid in place. `AStar.FindPath`
returns the mutated grid as a second result.

**Sets.** The open and closed sets hold whole `Block` values. In the source,
equality and hashing range over all six fields, and a Dafny `set<Block>` has
the same semantics.

**Termination and `None`.** The source's search loop and its parent walk
are not guaranteed to end. Each therefore receives a fuel bound, and
`None` means the fuel ran out.

**Random food positions.** The random generator that places food becomes
a parameter: the sequence of positions it would draw.

**Two behaviours of `find_path` worth noting.**
- **No "no path" result.** `find_path` returns a plain vector. When the open set empties before the destination is selected, it still walks the parent pointers back from the destination. The model does the same; `AStar.Search` reports which of the two ways the loop stopped, and proves that an empty open set means the destination cannot be reached. In that case the walk follows whatever parent pointers the grid holds, so `AStar.FindPath` promises only that each link is a wrapped unit step or a parent pointer already present in the input grid.
- **Closed cells can be expanded again.** The closed set holds whole blocks. Once a cell's `g`, `f` or parent changes, its grid copy no longer equals the closed copy, so the cell can be selected and expanded again. This is why the search loop takes a fuel bound.

## Model

| member | source | states |
|---|---|---|
| `Constants.GridFromWindow` | src/constants.rs:1-7 | the grid is 64 by 36 cells: the window size divided by the cell size, with no remainder |
| `Utils.RustRem` | src/utils.rs:5 | Rust's truncating remainder: smaller in magnitude than the divisor, with the dividend's sign |
| `Utils.RustRemCongruent` | src/utils.rs:3-13 | Rust's remainder agrees with the mathematical remainder modulo the divisor |
| `Utils.WrapX` | src/utils.rs:3-7 | `wrap_x!` lands in `[0, 64)` for every integer, negative ones included |
| `Utils.WrapY` | src/utils.rs:9-13 | `wrap_y!` lands in `[0, 36)` for every integer |
| `Utils.WrapIsEuclidean` | src/utils.rs:5 | the macros compute the Euclidean remainder by the grid extent |
| `Utils.WrapNear` | src/utils.rs:11 | within one extent of the grid, wrapping adds or subtracts the extent at most once |
| `Utils.WrapIsIdentityInRange` | src/utils.rs:4-6 | wrapping leaves in-range coordinates alone, so it is idempotent |
| `Utils.WrapAcrossEdges` | src/utils.rs:10-12 | stepping off one edge re-enters at the opposite edge: -1 becomes 63 or 35, and 64 or 36 becomes 0 |
| `Utils.Add` | src/utils.rs:25-34 | `+` adds componentwise: subtracting either operand from the sum gives back the other |
| `Utils.Sub` | src/utils.rs:36-45 | `-` gives the zero vector exactly when the two operands are equal |
| `Utils.SubUndoesAdd` | src/utils.rs:25-45 | vector subtraction undoes addition and vice versa, and addition commutes |
| `Utils.Equals` | src/utils.rs:47-51 | the hand-written `==` on vectors holds exactly when the two vectors are equal |
| `Utils.ManhattanDistance` | src/utils.rs:54-56 | the distance is non-negative, zero only for the origin, and at least each coordinate's magnitude |
| `AStar.HeuristicAtMostManhattan` | src/astar.rs:5-14 | the wrapped estimate is at most `manhattan_distance` of the difference, and equals it when neither axis is shorter the other way round the grid |
| `Utils.WrappedStepSymmetric` | src/astar.rs:18-22 | for in-grid cells, being one wrapped unit step apart is symmetric |
| `Utils.StepCases` | src/astar.rs:21-22 | the four wrapped steps from an in-grid cell, written without remainders: they wrap only at the edges |
| `Utils.WrappedStepMoves` | src/snake.rs:106-113 | a wrapped step from an in-grid cell stays in the grid and always moves |
| `Utils.NewBlock` | src/utils.rs:70-79 | a new block sits at (x, y), has parent (0, 0), is neither closed nor a wall, and has g = f = 0 |
| `Utils.Opposite` | src/utils.rs:90-100 | `!` has no fixed point and keeps the axis: up and down are swapped, as are left and right |
| `Utils.OppositeInvolution` | src/utils.rs:93-99 | reversing twice gives back the original heading |
| `AStar.Heuristic` | src/astar.rs:6-14 | the estimate is never negative |
| `AStar.HeuristicSymmetric` | src/astar.rs:7-8 | the estimate is the same in both directions |
| `AStar.HeuristicZero` | src/astar.rs:11-13 | a cell is at estimate 0 from itself, and on the grid from no other cell |
| `AStar.HeuristicBounded` | src/astar.rs:9-12 | on the grid the estimate is at most 32 + 18 |
| `AStar.HeuristicAcrossWrap` | src/astar.rs:9-10 | cells facing each other across an edge have estimate 1, not the full width or height minus one |
| `AStar.AxisStep` | src/astar.rs:11-12 | one wrapped step changes the per-axis wrapped distance by at most one |
| `AStar.HeuristicConsistent` | src/astar.rs:6-14 | consistency: one wrapped unit step changes the estimate to any in-grid destination by at most one |
| `AStar.HeuristicAdmissible` | src/astar.rs:6-13 | admissibility: every walk of wrapped unit steps is at least as long as the estimate between its ends |
| `AStar.Stepped` | src/astar.rs:21-22 | the neighbour coordinate computed with the extent added before the truncating remainder is a valid index |
| `AStar.SteppedIsWrappedStep` | src/astar.rs:20-22 | for an in-grid cell, each offset's coordinate is exactly one wrapped unit step away |
| `AStar.SteppedCases` | src/astar.rs:18-22 | the four offsets lead up, down, right and left by one, re-entering at the opposite edge only at the border |
| `AStar.StepIsStepped` | src/astar.rs:18-22 | conversely, every wrapped unit step from an in-grid cell is reached by one of the four offsets |
| `AStar.NeighboursFrom` | src/astar.rs:20-27 | the loop over the remaining offsets returns at most one block per offset and no walls; every non-wall candidate is included, in offset order |
| `AStar.Neighbours` | src/astar.rs:16-30 | at most 4 blocks, in offset order (0,1),(0,-1),(1,0),(-1,0); a candidate is returned exactly when it is not a wall |
| `AStar.NeighbourIsStep` | src/astar.rs:24-25 | on a well-formed grid, each neighbour is the grid's own block at an in-grid cell one wrapped step away |
| `AStar.CandidateIsStep` | src/astar.rs:21-25 | the cell inspected for each offset is the grid's block one wrapped step that way |
| `AStar.NeighboursAreSteps` | src/astar.rs:16-29 | all neighbours are one step away, and each neighbour's estimate is within one of the cell's own |
| `AStar.NeighboursFromDistinct` | src/astar.rs:20-27 | the loop over the offsets never returns two blocks at the same position when the candidates' positions differ |
| `AStar.NeighboursDistinct` | src/astar.rs:16-30 | on a well-formed grid no two neighbours of an in-grid cell share a position, so the write-backs of one expansion never overwrite each other |
| `AStar.MinF` | src/astar.rs:32-40 | for a non-empty open set, returns a member whose `f` is at most every member's `f` |
| `AStar.HasGreaterG` | src/astar.rs:42-49 | true exactly when some open block has a `g` strictly smaller than the neighbour's |
| `AStar.InsertOpen` | src/astar.rs:84-88 | the `has_greater_g_val` skip only ever skips a block the open set already holds, so after the test the open set is the old set plus the neighbour |
| `AStar.Relaxed` | src/astar.rs:73-78 | relaxation sets g = current g + 1, f = g + estimate, and parent = the current cell; position, wall and closed flags are kept |
| `AStar.RelaxedCopiesAre` | src/astar.rs:68-88 | the blocks one expansion adds to the open set are exactly the relaxed copies of the neighbours not in the closed set |
| `AStar.Store` | src/astar.rs:81-82 | one grid write puts the block at its own cell and changes no other cell |
| `AStar.WriteBack` | src/astar.rs:80-82 | the two writes leave the neighbour, and the current block when it sits elsewhere, at their cells; nothing else changes |
| `AStar.WriteBackAround` | src/astar.rs:68-82 | over a whole expansion, only the expanded cell and cells one wrapped step from it change |
| `AStar.Expand` | src/astar.rs:67-89 | one expansion turns the open set into the old set plus the relaxed copy of every neighbour not in the closed set; each such neighbour's cell then holds its relaxed copy. Once any neighbour is relaxed, the current block sits in its own cell; when every neighbour is closed, the grid is unchanged. Neighbours are in-grid cells one wrapped step away; the grid stays well formed with unchanged walls. Every cell other than the current one and those of neighbours not in the closed set keeps its block, so the cells of closed neighbours and of walls are never written |
| `AStar.ExpandExplores` | src/astar.rs:67-89 | after an expansion, every non-wall cell one step from the expanded cell has been selected or waits in the open set |
| `AStar.Search` | src/astar.rs:52-90 | the loop stops at the destination (`reached`) or with an empty open set, and in the second case the destination cannot be reached from start through non-wall cells; every written cell sits at its own coordinate with its wall flag kept and a parent one wrapped step away, linked back towards start; with start = destination it stops at once without writing the grid |
| `AStar.ExhaustedIsUnreachable` | src/astar.rs:57-89 | once the open set is empty with every selected cell explored, a destination never selected is unreachable from start |
| `AStar.ExploredCoversWalk` | src/astar.rs:57-89 | with nothing left open, every cell of a non-wall walk from a selected start has been selected |
| `AStar.SoundKeepsWalls` | src/astar.rs:80-82 | the search never changes a cell's wall flag |
| `AStar.ParentChainIsSimple` | src/astar.rs:92-97 | a returned walk never visits a cell twice |
| `AStar.PartialChainStep` | src/astar.rs:94-96 | each walk iteration extends the chain by one parent link |
| `AStar.PartialChainCloses` | src/astar.rs:94-99 | when the walk reaches start it is a full parent chain, empty exactly when start is the destination |
| `AStar.WalkParents` | src/astar.rs:92-99 | the walk is empty exactly when start = destination; otherwise it begins at the destination, avoids start, and follows recorded parent pointers until start. It gives up only when none of the first `fuel` + 1 cells along the parent pointers from the destination is start |
| `AStar.ChainSteps` | src/astar.rs:74-97 | each link of the returned walk either is a wrapped unit step or was a parent pointer already in the input grid |
| `AStar.ChainInWritten` | src/astar.rs:92-97 | a parent chain through a grid the search linked, from a written destination, visits only written cells |
| `AStar.ChainIsWalk` | src/astar.rs:74-97 | such a chain is a walk: no cell of it is a wall, and every link, the one into start included, is a wrapped unit step |
| `AStar.FindPath` | src/astar.rs:51-100 | `find_path(map, p, p)` returns `[]` and leaves the grid as it was. Any returned path begins at the destination, excludes start, has no repeats, and follows the grid's parent pointers. When the destination is reachable, no cell of the path is a wall and every link, the last-to-start one included, is a wrapped unit step. Walls and coordinates are preserved |
| `SnakeRules.NewSnake` | src/snake.rs:15-23 | a single segment at the grid centre (32, 18), heading and current heading right, no route, score 0 |
| `SnakeRules.ShouldFindPath` | src/snake.rs:25-27 | a route is requested exactly when the current route is empty |
| `SnakeRules.SetPath` | src/snake.rs:29-31 | the route is replaced and nothing else changes |
| `SnakeRules.SetPathThenShouldFindPath` | src/snake.rs:25-31 | after a route is installed, a new one is requested exactly when the installed route is empty |
| `SnakeRules.MoveHead` | src/snake.rs:101-113 | up and down change only y, left and right only x; up subtracts one from y, down adds one to y, left subtracts one from x and right adds one to x, each wrapped; from an in-grid cell the head moves one wrapped step and stays on the grid |
| `SnakeRules.MovesAreDistinct` | src/snake.rs:106-113 | the four headings lead from an in-grid head to four different cells |
| `SnakeRules.GetDirection` | src/snake.rs:63-79 | a target in the same column gives up or down, one in the same row left or right, and any other target the current heading |
| `SnakeRules.GetDirectionInvertsMove` | src/snake.rs:65-76 | reading the heading back from a one-cell move gives the move's direction, so each wrapped step above, below, left or right maps to up, down, left or right |
| `SnakeRules.GetDirectionReachesStep` | src/snake.rs:64-78 | for a target one wrapped step from the head, the chosen heading moves the head onto it |
| `SnakeRules.UpdateBody` | src/snake.rs:97-114 | the length is kept; segment i takes segment i-1's old cell; the head moves one cell in the current heading; nothing else changes |
| `SnakeRules.Update` | src/snake.rs:81-95 | in autopilot, a non-empty route loses exactly its last cell, and the heading is the one `get_direction` picks towards that cell, or towards (0, 0) when the route is empty. Outside autopilot the requested heading is the one kept. The current heading is never reversed, and a request to reverse is ignored. The score and the body length are kept, and the body shifts behind the moved head |
| `SnakeRules.UpdateFollowsPath` | src/snake.rs:82-92 | a route cell one step from the head is reached, unless reaching it would reverse the snake, in which case the snake carries straight on |
| `SnakeRules.UpdateKeepsOnGrid` | src/snake.rs:97-113 | a snake whose segments are all on the grid stays on the grid when it moves |
| `SnakeRules.CollidesWithHead` | src/snake.rs:116-118 | true exactly when the position equals the head under the vector `==` |
| `SnakeRules.CollidesWithSnake` | src/snake.rs:120-122 | true exactly when some segment occupies the position |
| `SnakeRules.SelfCollision` | src/snake.rs:124-129 | true exactly when a segment after the head occupies the head's cell |
| `SnakeRules.Grow` | src/snake.rs:131-136 | appends the off-grid placeholder (-1, -1), adds one to the score, and changes nothing else |
| `SnakeRules.GrowThenUpdate` | src/snake.rs:132-134 | after growing and moving, the body is the new head followed by the whole old body: the placeholder never survives a move |
| `GameRules.MakeMap` | src/game.rs:77-97 | 36 rows of 64 cells at their own coordinates. A cell is a wall exactly when a body part occupies it, and off-grid parts are skipped. Every other field keeps its default, and the head's cell is a wall |
| `GameRules.FreshCellIsNewBlock` | src/game.rs:78-85 | the cell `make_map` starts each position with is exactly `Block::new` at that position |
| `GameRules.Plan` | src/game.rs:100-109 | outside autopilot, or while a route remains, nothing changes. Otherwise a found route replaces the snake's route and nothing else, and a missing one sets the state to game over and changes nothing else |
| `GameRules.Ate` | src/game.rs:113 | the food is eaten exactly when the moved snake's head equals the food position under the vector `==` |
| `GameRules.PlanConsultsOnlyWhenDue` | src/game.rs:100 | the pathfinder's answer makes a difference only when autopilot is on and the route is empty; in a game that is not over, different answers then always give different results |
| `GameRules.Respawn` | src/game.rs:114-116 | food clear of the body stays put. Otherwise the result is a draw clear of the body, and the result is absent only when every draw lies under the body |
| `GameRules.RespawnPicksFirstFree` | src/game.rs:114-116 | a respawned position is the first draw clear of the body |
| `GameRules.CheckSelfCollision` | src/game.rs:120-122 | the game ends exactly when the head lies inside the body; nothing else changes |
| `GameRules.GrowKeepsSelfCollision` | src/game.rs:117-120 | after a move the head is never the placeholder, so growing neither creates nor hides a self-collision |
| `GameRules.Tick` | src/game.rs:99-123 | one update: route decision, move, then eating. Eating grows the body by the placeholder and the score by one, and moves the food to a free grid cell. Without eating, the food stays. The route and both headings are the moved snake's. The game ends exactly when the planned game was over or the head hits the body |
| `GameRules.GameOverIsFinal` | src/game.rs:107-121 | a game that is over stays over |
| `GameRules.TickKeepsFoodClear` | src/game.rs:111-118 | food on the grid and clear of the snake is still on the grid and clear of the snake after a tick |
| `GameRules.TickKeepsRoute` | src/game.rs:100-111 | a route of in-grid cells that avoids the head stays so after the move pops its last cell |
| `GameRules.FindRoute` | src/game.rs:100-101 | the grid searched is `make_map`'s snapshot of the body, with walls exactly under body parts. A route found on it lies on the grid and avoids the head. It is empty exactly when the head is on the food, and otherwise starts at the food. When the food is reachable, the route avoids the body and runs in wrapped unit steps back to the head |
| `GameRules.Step` | src/game.rs:99-111 | the tick is `Tick` on the pathfinder's answer, and there is no answer when no route is due. When one is due, the answer is a search on the snapshot with `FindRoute`'s guarantees, and a freshly planned route the snake keeps lies on the grid and avoids the old head |

## Left out

- **Rendering, fonts and SDL setup:**
  - `Snake::draw`, `Snake::draw_score`, `Food::draw`, `Game::draw`;
  - `Game::new` and the `start` loop with its sleep.

  These are graphics and timing only.
- **Keyboard and event handling** (`Snake::event_handler`, `Game::event_handler`): these are input plumbing. The model takes their effects as inputs: the `direction` field, the `astar` flag, the route and the game state. `Game::event_handler` sets the state to `GAMEOVER` on Escape or a window close (src/game.rs:56-60). On C it clears the route and toggles `astar` (src/game.rs:61-67). It forwards the event to the snake only outside autopilot (src/game.rs:71-73).
- **src/food.rs and its random generator:** the generator is replaced by the sequence of positions it would draw. The initial food position is an input to the game.
- **src/main.rs:** it only parses the command line.
- **`println!` in the no-route branch** (src/game.rs:105-106): console output only.
- **Machine integers:** `g`, `f` and coordinates are mathematical integers.
  - The `u16` width of `g_val` and `f_val` is out of scope. `g` grows by one with each relaxation, and whether the search loop stops is not settled, so the model makes no claim about overflow there.
  - The cast of the estimate to `u16` loses nothing, since the estimate on the grid is at most 32 + 18 (`AStar.HeuristicBounded`).
  - `i32` overflow of coordinates is not modelled.
- **`is_closed`:** the field is carried but never read or written by the search, as in the source.
- **Optimality:** shortest paths are not claimed. The relaxation check compares against every open block rather than against the same cell's entry, so the source does not guarantee them.
- AStar.FindPath: the search loop and the parent walk each take a fuel bound, because the source guarantees neither ends. `None` means one of the two loops was cut off, which has no counterpart in the source. For the walk, `AStar.WalkParents` states that none of the first `walkFuel` + 1 cells along the parent pointers was start; `AStar.FindPath` itself does not say which loop was cut off. The unchanged grid for `start == destination` is stated row by row, and it needs at least one unit of fuel.
- AStar.Search: reaching the destination whenever it is reachable is proved only for a search that is not cut off by its fuel bound. Whether the source's loop always stops is not settled here.
- AStar.MinF: it does not say which of several minimal blocks is returned. The source takes the first in hash-set iteration order, which is unspecified.
- GameRules.Respawn: the draws are a finite sequence. The source's loop can go on drawing for ever, and running out of draws is modelled as an absent result.
- GameRules.Step: a search that runs out of fuel is treated like the source's no-route branch, so the game ends. The source calls `find_path` on a vector result, so that branch has no counterpart in the code as written.

=== FILE: astar.dfy ===
/**
  The A* search of src/astar.rs on the wrap-around grid: the heuristic, the
  neighbour enumeration, the two open-set helpers, the write-back of a
  relaxation into the grid, and `find_path` with its parent-pointer walk.
 */
module AStar {
  import opened Constants
  import opened Utils

  // ---------------------------------------------------------------------------
  // Heuristic
  // ---------------------------------------------------------------------------

  /**
    One axis of `calc_herustic`: the direct distance and the distance the
    other way round the wrap (`extent` minus the direct one), whichever is less.
   */
  function AxisDistance(a: int, b: int, extent: int): int
  {
    var d := Abs(a - b);
    var dWrap := Abs(extent - d);
    Min(d, dWrap)
  }

  /** `calc_herustic`: the wrapped Manhattan distance, summed over both axes. */
  function Heuristic(position: Vector, destination: Vector): (h: int)
    ensures h >= 0
  {
    AxisDistance(position.x, destination.x, GridCols) + AxisDistance(position.y, destination.y, GridRows)
  }

  /** The distance estimate does not depend on which end is the destination. */
  lemma HeuristicSymmetric(a: Vector, b: Vector)
    ensures Heuristic(a, b) == Heuristic(b, a)
  {
  }

  /**
    The wrapped estimate never exceeds the plain Manhattan length of the
    difference, `manhattan_distance` of `position - destination`, and equals
    it when neither axis is shorter the other way round.
   */
  lemma HeuristicAtMostManhattan(a: Vector, b: Vector)
    ensures Heuristic(a, b) <= ManhattanDistance(Sub(a, b))
    ensures 2 * Abs(a.x - b.x) <= GridCols && 2 * Abs(a.y - b.y) <= GridRows ==>
      Heuristic(a, b) == ManhattanDistance(Sub(a, b))
  {
  }

  /** A cell is at distance zero from itself, and on the grid from no other cell. */
  lemma HeuristicZero(a: Vector, b: Vector)
    ensures Heuristic(a, a) == 0
    ensures InGrid(a) && InGrid(b) ==> (Heuristic(a, b) == 0 <==> a == b)
  {
  }

  /** On the grid no cell is more than half the width plus half the height away. */
  lemma HeuristicBounded(a: Vector, b: Vector)
    requires InGrid(a) && InGrid(b)
    ensures 0 <= Heuristic(a, b) <= GridCols / 2 + GridRows / 2
  {
  }

  /** Cells facing each other across an edge are neighbours, not a full width apart. */
  lemma HeuristicAcrossWrap(x: int, y: int)
    ensures Heuristic(Vector(0, y), Vector(GridCols - 1, y)) == 1
    ensures Heuristic(Vector(x, 0), Vector(x, GridRows - 1)) == 1
  {
  }

  /** One wrapped unit step changes the per-axis wrapped distance by at most one. */
  lemma AxisStep(a: int, a': int, b: int, n: int)
    requires n >= 2 && 0 <= a < n && 0 <= b < n
    requires || a' == (if a == n - 1 then 0 else a + 1)
             || a' == (if a == 0 then n - 1 else a - 1)
    ensures AxisDistance(a', b, n) <= AxisDistance(a, b, n) + 1
    ensures AxisDistance(a, b, n) <= AxisDistance(a', b, n) + 1
  {
  }

  /**
    Consistency: a wrapped unit step changes the estimate to any in-grid
    destination by at most one, the step's cost.
   */
  lemma HeuristicConsistent(p: Vector, q: Vector, d: Vector)
    requires InGrid(p) && InGrid(d) && IsWrappedStep(p, q)
    ensures Heuristic(q, d) <= Heuristic(p, d) + 1
    ensures Heuristic(p, d) <= Heuristic(q, d) + 1
  {
    StepCases(p);
    if p.x == q.x && (q.y == WrapY(p.y + 1) || q.y == WrapY(p.y - 1)) {
      AxisStep(p.y, q.y, d.y, GridRows);
    } else {
      assert p.y == q.y && (q.x == WrapX(p.x + 1) || q.x == WrapX(p.x - 1));
      AxisStep(p.x, q.x, d.x, GridCols);
    }
  }

  /** A walk: in-grid cells, each a wrapped unit step from the one before. */
  ghost predicate IsWalk(w: seq<Vector>)
  {
    && (forall i | 0 <= i < |w| :: InGrid(w[i]))
    && (forall i | 0 < i < |w| :: IsWrappedStep(w[i - 1], w[i]))
  }

  /** Admissibility: no walk between two cells is shorter than their estimate. */
  lemma {:induction false} HeuristicAdmissible(w: seq<Vector>)
    requires |w| > 0 && IsWalk(w)
    ensures Heuristic(w[0], w[|w| - 1]) <= |w| - 1
  {
    var last := w[|w| - 1];
    if |w| == 1 {
      HeuristicZero(last, last);
    } else {
      HeuristicAdmissible(w[1..]);
      assert w[1..][|w[1..]| - 1] == last;
      HeuristicConsistent(w[0], w[1], last);
    }
  }

  // ---------------------------------------------------------------------------
  // Neighbours
  // ---------------------------------------------------------------------------

  /** The neighbour offsets in the order `get_neighbours` visits them. */
  const Offsets: seq<Vector> := [Vector(0, 1), Vector(0, -1), Vector(1, 0), Vector(-1, 0)]

  /**
    Positions for which `get_neighbours` stays inside the grid: it adds the
    extent once before Rust's remainder, so a coordinate more than one
    extent below zero would produce a negative index.
   */
  predicate Enumerable(position: Vector)
  {
    position.x >= 1 - GridCols && position.y >= 1 - GridRows
  }

  /** The neighbour coordinate `get_neighbours` computes for one offset. */
  function Stepped(position: Vector, k: nat): (v: Vector)
    requires Enumerable(position) && k < |Offsets|
    ensures InGrid(v)
  {
    Vector(RustRem(position.x + Offsets[k].x + GridCols, GridCols),
           RustRem(position.y + Offsets[k].y + GridRows, GridRows))
  }

  /** The grid cell `get_neighbours` looks at for offset `k`, wall or not. */
  function Candidate(m: Map, position: Vector, k: nat): Block
    requires IsGrid(m) && Enumerable(position) && k < |Offsets|
  {
    At(m, Stepped(position, k))
  }

  /** All four looked-at cells, in offset order. */
  function Candidates(m: Map, position: Vector): seq<Block>
    requires IsGrid(m) && Enumerable(position)
  {
    [Candidate(m, position, 0), Candidate(m, position, 1),
     Candidate(m, position, 2), Candidate(m, position, 3)]
  }

  /** `a` is `b` with some elements left out, order kept. */
  ghost predicate IsSubsequence(a: seq<Block>, b: seq<Block>)
    decreases |b|
  {
    if |a| == 0 then true
    else if |b| == 0 then false
    else if a[0] == b[0] then IsSubsequence(a[1..], b[1..])
    else IsSubsequence(a, b[1..])
  }

  /** The non-wall cells among the offsets from `k` on, in offset order. */
  function NeighboursFrom(m: Map, position: Vector, k: nat): (ns: seq<Block>)
    requires IsGrid(m) && Enumerable(position) && k <= |Offsets|
    ensures |ns| <= |Offsets| - k
    ensures forall b | b in ns :: !b.isWall
    ensures forall b | b in ns :: b in Candidates(m, position)[k..]
    ensures forall j | k <= j < |Offsets| :: !Candidates(m, position)[j].isWall ==> Candidates(m, position)[j] in ns
    ensures IsSubsequence(ns, Candidates(m, position)[k..])
    decreases |Offsets| - k
  {
    if k == |Offsets| then []
    else
      var c := Candidate(m, position, k);
      var rest := NeighboursFrom(m, position, k + 1);
      assert Candidates(m, position)[k..] == [c] + Candidates(m, position)[k + 1..];
      if c.isWall then
        assert rest == [] || rest[0] != c;
        rest
      else
        assert ([c] + rest)[1..] == rest;
        [c] + rest
  }

  /**
    `get_neighbours`: the cells one wrapped step away in offset order
    (0,1), (0,-1), (1,0), (-1,0), walls dropped.
   */
  function Neighbours(m: Map, position: Vector): (ns: seq<Block>)
    requires IsGrid(m) && Enumerable(position)
    ensures |ns| <= 4
    ensures forall b | b in ns :: !b.isWall
    ensures forall b | b in ns :: b in Candidates(m, position)
    ensures forall j | 0 <= j < |Offsets| :: !Candidates(m, position)[j].isWall <==> Candidates(m, position)[j] in ns
    ensures IsSubsequence(ns, Candidates(m, position))
  {
    assert Candidates(m, position)[0..] == Candidates(m, position);
    NeighboursFrom(m, position, 0)
  }

  /** For an in-grid position the offset arithmetic is the wrapped move along the offset. */
  lemma SteppedIsWrap(position: Vector, k: nat)
    requires InGrid(position) && k < |Offsets|
    ensures Stepped(position, k) == Vector(WrapX(position.x + Offsets[k].x), WrapY(position.y + Offsets[k].y))
  {
    WrapIsEuclidean(position.x + Offsets[k].x);
    WrapIsEuclidean(position.y + Offsets[k].y);
    ModShift(position.x + Offsets[k].x, GridCols);
    ModShift(position.y + Offsets[k].y, GridRows);
  }

  /** For an in-grid position the offset arithmetic is the wrapped unit step. */
  lemma SteppedIsWrappedStep(position: Vector, k: nat)
    requires InGrid(position) && k < |Offsets|
    ensures IsWrappedStep(position, Stepped(position, k))
  {
    SteppedIsWrap(position, k);
    WrapIsIdentityInRange(position.x);
    WrapIsIdentityInRange(position.y);
  }

  /** The cells the four offsets reach from an in-grid cell, written without remainders. */
  lemma SteppedCases(position: Vector)
    requires InGrid(position)
    ensures Stepped(position, 0) == Vector(position.x, if position.y == GridRows - 1 then 0 else position.y + 1)
    ensures Stepped(position, 1) == Vector(position.x, if position.y == 0 then GridRows - 1 else position.y - 1)
    ensures Stepped(position, 2) == Vector(if position.x == GridCols - 1 then 0 else position.x + 1, position.y)
    ensures Stepped(position, 3) == Vector(if position.x == 0 then GridCols - 1 else position.x - 1, position.y)
  {
    SteppedIsWrap(position, 0);
    SteppedIsWrap(position, 1);
    SteppedIsWrap(position, 2);
    SteppedIsWrap(position, 3);
    WrapIsIdentityInRange(position.x);
    WrapIsIdentityInRange(position.y);
    StepCases(position);
  }

  /** The four offsets lead from an in-grid cell to four different cells. */
  lemma SteppedDistinct(position: Vector)
    requires InGrid(position)
    ensures forall j, k | 0 <= j < k < |Offsets| :: Stepped(position, j) != Stepped(position, k)
  {
    SteppedCases(position);
  }

  /** Every wrapped unit step from an in-grid cell is reached by one of the four offsets. */
  lemma StepIsStepped(position: Vector, q: Vector)
    requires InGrid(position) && IsWrappedStep(position, q)
    ensures exists k | 0 <= k < |Offsets| :: Stepped(position, k) == q
  {
    SteppedCases(position);
    StepCases(position);
    if q == Stepped(position, 0) {
    } else if q == Stepped(position, 1) {
    } else if q == Stepped(position, 2) {
    } else {
      assert q == Stepped(position, 3);
    }
  }

  /**
    On a well-formed grid a neighbour of an in-grid cell is the grid's own
    copy of a cell one wrapped step away.
   */
  lemma NeighbourIsStep(m: Map, position: Vector, b: Block)
    requires WellFormed(m) && InGrid(position) && b in Neighbours(m, position)
    ensures InGrid(b.pos) && b == At(m, b.pos)
    ensures IsWrappedStep(position, b.pos)
  {
    var cs := Candidates(m, position);
    assert b in cs;
    var j :| 0 <= j < |cs| && cs[j] == b;
    CandidateIsStep(m, position, j);
  }

  /** Entry `k` of the candidate list is the cell at the `k`-th stepped coordinate. */
  lemma CandidateAt(m: Map, position: Vector, k: nat)
    requires IsGrid(m) && Enumerable(position) && k < |Offsets|
    ensures Candidates(m, position)[k] == At(m, Stepped(position, k))
  {
  }

  /** The cell looked at for offset `k` is the grid's copy of the cell one wrapped step that way. */
  lemma CandidateIsStep(m: Map, position: Vector, k: nat)
    requires WellFormed(m) && InGrid(position) && k < |Offsets|
    ensures var b := Candidates(m, position)[k];
      InGrid(b.pos) && b == At(m, b.pos) && IsWrappedStep(position, b.pos)
  {
    var v := Stepped(position, k);
    CandidateAt(m, position, k);
    assert m[v.y][v.x].pos == v;
    SteppedIsWrappedStep(position, k);
  }

  /**
    Every neighbour of an in-grid cell is one wrapped step away, and its
    estimate to any in-grid destination is within one of the cell's.
   */
  lemma NeighboursAreSteps(m: Map, position: Vector, destination: Vector)
    requires WellFormed(m) && InGrid(position) && InGrid(destination)
    ensures forall b | b in Neighbours(m, position) ::
      && InGrid(b.pos) && b == At(m, b.pos)
      && IsWrappedStep(position, b.pos)
      && Heuristic(b.pos, destination) <= Heuristic(position, destination) + 1
      && Heuristic(position, destination) <= Heuristic(b.pos, destination) + 1
  {
    forall b | b in Neighbours(m, position)
      ensures InGrid(b.pos) && b == At(m, b.pos)
      ensures IsWrappedStep(position, b.pos)
      ensures Heuristic(b.pos, destination) <= Heuristic(position, destination) + 1
      ensures Heuristic(position, destination) <= Heuristic(b.pos, destination) + 1
    {
      NeighbourIsStep(m, position, b);
      HeuristicConsistent(position, b.pos, destination);
    }
  }

  /** On a well-formed grid the four looked-at cells sit at the four stepped coordinates. */
  lemma CandidatePositions(m: Map, position: Vector)
    requires WellFormed(m) && InGrid(position)
    ensures forall k | 0 <= k < |Offsets| :: Candidates(m, position)[k].pos == Stepped(position, k)
  {
    forall k | 0 <= k < |Offsets|
      ensures Candidates(m, position)[k].pos == Stepped(position, k)
    {
      var v := Stepped(position, k);
      CandidateAt(m, position, k);
      assert m[v.y][v.x].pos == v;
    }
  }

  /** No two blocks of `s` sit at the same position. */
  ghost predicate DistinctPositions(s: seq<Block>)
  {
    forall i, j | 0 <= i < j < |s| :: s[i].pos != s[j].pos
  }

  /** Neighbours picked from candidates at distinct positions sit at distinct positions. */
  lemma {:induction false} NeighboursFromDistinct(m: Map, position: Vector, k: nat)
    requires IsGrid(m) && Enumerable(position) && k <= |Offsets|
    requires forall i, j | k <= i < j < |Offsets| :: Candidates(m, position)[i].pos != Candidates(m, position)[j].pos
    ensures DistinctPositions(NeighboursFrom(m, position, k))
    decreases |Offsets| - k
  {
    if k < |Offsets| {
      NeighboursFromDistinct(m, position, k + 1);
      var cs := Candidates(m, position);
      var c := Candidate(m, position, k);
      var rest := NeighboursFrom(m, position, k + 1);
      assert cs[k] == c;
      if c.isWall {
        assert NeighboursFrom(m, position, k) == rest;
      } else {
        forall b | b in rest
          ensures b.pos != c.pos
        {
          assert b in cs[k + 1..];
          var l :| k + 1 <= l < |Offsets| && cs[l] == b;
        }
        ConsDistinct(c, rest);
        assert NeighboursFrom(m, position, k) == [c] + rest;
      }
    }
  }

  /** Putting a block in front of blocks at other, distinct positions keeps the positions distinct. */
  lemma ConsDistinct(c: Block, rest: seq<Block>)
    requires DistinctPositions(rest)
    requires forall b | b in rest :: b.pos != c.pos
    ensures DistinctPositions([c] + rest)
  {
    var ns := [c] + rest;
    forall i, j | 0 <= i < j < |ns|
      ensures ns[i].pos != ns[j].pos
    {
      assert ns[j] == rest[j - 1];
      if i > 0 {
        assert ns[i] == rest[i - 1];
      }
    }
  }

  /** On a well-formed grid the four candidate cells of an in-grid cell sit at distinct positions. */
  lemma CandidatesDistinct(m: Map, position: Vector)
    requires WellFormed(m) && InGrid(position)
    ensures forall i, j | 0 <= i < j < |Offsets| :: Candidates(m, position)[i].pos != Candidates(m, position)[j].pos
  {
    CandidatePositions(m, position);
    SteppedDistinct(position);
  }

  /** On a well-formed grid the neighbours of an in-grid cell sit at distinct positions. */
  lemma NeighboursDistinct(m: Map, position: Vector)
    requires WellFormed(m) && InGrid(position)
    ensures DistinctPositions(Neighbours(m, position))
  {
    CandidatesDistinct(m, position);
    NeighboursFromDistinct(m, position, 0);
    assert Neighbours(m, position) == NeighboursFrom(m, position, 0);
  }

  // ---------------------------------------------------------------------------
  // Open-set helpers
  // ---------------------------------------------------------------------------

  /**
    `neighbour_with_min_f`: a member of the open set with the least `f`.
    The set's iteration order is arbitrary, so which of several minimal
    members comes back is left open.
   */
  method MinF(open: set<Block>) returns (result: Block)
    requires open != {}
    ensures result in open
    ensures forall b | b in open :: result.f <= b.f
  {
    result :| result in open;
    var rest := open;
    while rest != {}
      invariant rest <= open && result in open
      invariant forall b | b in open - rest :: result.f <= b.f
      decreases rest
    {
      var b :| b in rest;
      if b.f < result.f {
        result := b;
      }
      rest := rest - {b};
    }
  }

  /** `has_greater_g_val`: does some open block have a strictly smaller `g` than `neigh`? */
  method HasGreaterG(open: set<Block>, neigh: Block) returns (r: bool)
    ensures r <==> exists b | b in open :: neigh.g > b.g
  {
    var rest := open;
    while rest != {}
      invariant rest <= open
      invariant forall b | b in open - rest :: neigh.g <= b.g
      decreases rest
    {
      var b :| b in rest;
      if neigh.g > b.g {
        return true;
      }
      rest := rest - {b};
    }
    return false;
  }

  /**
    The insertion at the end of the inner loop: skip a neighbour that the open
    set already holds when `has_greater_g_val` says so, insert it otherwise.
    Either way the open set ends up holding the neighbour and nothing else new.
   */
  method InsertOpen(open: set<Block>, neigh: Block) returns (r: set<Block>)
    ensures r == open + {neigh}
  {
    if neigh in open {
      var greater := HasGreaterG(open, neigh);
      if greater {
        assert open + {neigh} == open;
        return open;
      }
    }
    return open + {neigh};
  }

  // ---------------------------------------------------------------------------
  // Relaxation and write-back
  // ---------------------------------------------------------------------------

  /** The neighbour after relaxation through `current`. */
  function Relaxed(current: Block, neigh: Block, destination: Vector): (b: Block)
    ensures b.g == current.g + 1
    ensures b.f == b.g + Heuristic(neigh.pos, destination)
    ensures b.parentPos == current.pos
    ensures b.pos == neigh.pos && b.isWall == neigh.isWall && b.isClosed == neigh.isClosed
  {
    neigh.(g := current.g + 1,
           f := current.g + 1 + Heuristic(neigh.pos, destination),
           parentPos := current.pos)
  }

  /** Overwrite the cell at `b.pos` with `b`. */
  function Store(m: Map, b: Block): (r: Map)
    requires IsGrid(m) && InGrid(b.pos)
    ensures IsGrid(r)
    ensures At(r, b.pos) == b
    ensures forall y, x | 0 <= y < GridRows && 0 <= x < GridCols && Vector(x, y) != b.pos ::
      r[y][x] == m[y][x]
  {
    m[b.pos.y := m[b.pos.y][b.pos.x := b]]
  }

  /**
    The two grid writes of one relaxation: `current` back at its own cell,
    then the relaxed neighbour at its cell. No other cell changes.
   */
  function WriteBack(m: Map, current: Block, neigh: Block): (r: Map)
    requires IsGrid(m) && InGrid(current.pos) && InGrid(neigh.pos)
    ensures IsGrid(r)
    ensures At(r, neigh.pos) == neigh
    ensures current.pos != neigh.pos ==> At(r, current.pos) == current
    ensures forall y, x | 0 <= y < GridRows && 0 <= x < GridCols &&
        Vector(x, y) != current.pos && Vector(x, y) != neigh.pos :: r[y][x] == m[y][x]
  {
    Store(Store(m, current), neigh)
  }

  // ---------------------------------------------------------------------------
  // find_path
  // ---------------------------------------------------------------------------

  /**
    What the search may leave in a cell: the cell's position is in the grid,
    its parent pointer too, its wall flag is the one of the input grid, and
    its parent is either the one the input grid already had or a cell one
    wrapped step away.
   */
  ghost predicate Sound(m0: Map, b: Block)
    requires IsGrid(m0)
  {
    && InGrid(b.pos) && InGrid(b.parentPos)
    && b.isWall == At(m0, b.pos).isWall
    && (b.parentPos == At(m0, b.pos).parentPos || IsWrappedStep(b.parentPos, b.pos))
  }

  ghost predicate SoundMap(m0: Map, m: Map)
    requires IsGrid(m0)
  {
    && WellFormed(m)
    && forall y, x | 0 <= y < GridRows && 0 <= x < GridCols :: Sound(m0, m[y][x])
  }

  /** A sound grid has the input's walls, cell for cell. */
  lemma SoundKeepsWalls(m0: Map, m: Map)
    requires IsGrid(m0) && SoundMap(m0, m)
    ensures forall y, x | 0 <= y < GridRows && 0 <= x < GridCols :: m[y][x].isWall == m0[y][x].isWall
  {
    forall y, x | 0 <= y < GridRows && 0 <= x < GridCols
      ensures m[y][x].isWall == m0[y][x].isWall
    {
      assert Sound(m0, m[y][x]);
    }
  }

  /** The parent pointer the grid records at `v`. */
  function ParentOf(m: Map, v: Vector): Vector
    requires IsGrid(m) && InGrid(v)
  {
    At(m, v).parentPos
  }

  /**
    The walk `find_path` returns: destination first, `start` nowhere, each
    later coordinate the parent the grid records for the one before, and the
    last one's recorded parent is `start`.
   */
  ghost predicate IsParentChain(m: Map, path: seq<Vector>, start: Vector, destination: Vector)
    requires IsGrid(m)
  {
    && (forall i | 0 <= i < |path| :: InGrid(path[i]) && path[i] != start)
    && (|path| > 0 ==> path[0] == destination && ParentOf(m, path[|path| - 1]) == start)
    && (forall i {:trigger ParentOf(m, path[i])} | 0 <= i < |path| - 1 :: path[i + 1] == ParentOf(m, path[i]))
  }

  /** The last cell of a parent chain occurs only once: its parent is `start`, which the chain avoids. */
  lemma LastIsUnique(m: Map, path: seq<Vector>, start: Vector, destination: Vector, i: nat)
    requires IsGrid(m) && IsParentChain(m, path, start, destination)
    requires i < |path| - 1
    ensures path[i] != path[|path| - 1]
  {
    assert path[i + 1] == ParentOf(m, path[i]);
  }

  /**
    A parent chain that reaches `start` never repeats a cell: a repeat would
    make the walk periodic, and the period would contain `start`.
   */
  lemma {:induction false} ParentChainIsSimple(m: Map, path: seq<Vector>, start: Vector, destination: Vector, i: nat, j: nat)
    requires IsGrid(m) && IsParentChain(m, path, start, destination)
    requires i < j < |path|
    ensures path[i] != path[j]
    decreases |path| - j
  {
    if j == |path| - 1 {
      LastIsUnique(m, path, start, destination, i);
    } else if path[i] == path[j] {
      assert path[i + 1] == ParentOf(m, path[i]) == ParentOf(m, path[j]) == path[j + 1];
      ParentChainIsSimple(m, path, start, destination, i + 1, j + 1);
    }
  }

  /**
    A block the search has tied back towards `start`: it sits at `start`,
    or its cell has been written, it is no wall, and its parent is one
    wrapped step away and is `start` or another written cell.
   */
  ghost predicate Linked(start: Vector, written: set<Vector>, b: Block)
  {
    || b.pos == start
    || (&& b.pos in written && !b.isWall && IsWrappedStep(b.parentPos, b.pos)
        && (b.parentPos == start || b.parentPos in written))
  }

  /** Every written cell is in the grid, records its own coordinate and holds a linked block. */
  ghost predicate LinkedMap(m: Map, start: Vector, written: set<Vector>)
    requires IsGrid(m)
  {
    && (forall v | v in written :: InGrid(v))
    && forall v {:trigger At(m, v)} | v in written && InGrid(v) :: At(m, v).pos == v && Linked(start, written, At(m, v))
  }

  /** Linking only gets easier as more cells are written. */
  lemma LinkedGrows(start: Vector, written: set<Vector>, written': set<Vector>, s: set<Block>)
    requires written <= written' && forall b | b in s :: Linked(start, written, b)
    ensures forall b | b in s :: Linked(start, written', b)
  {
  }

  /** Marking the selected block's cell as written keeps the grid linked. */
  lemma CurrentLinked(m0: Map, grid: Map, start: Vector, written: set<Vector>, current: Block)
    requires IsGrid(m0) && SoundMap(m0, grid) && InGrid(current.pos)
    requires LinkedMap(grid, start, written) && Linked(start, written, current)
    ensures LinkedMap(grid, start, written + {current.pos})
  {
    CellFacts(m0, grid, current.pos);
    var w := written + {current.pos};
    forall v | v in w
      ensures InGrid(v) && At(grid, v).pos == v && Linked(start, w, At(grid, v))
    {
      if v != current.pos {
        assert Linked(start, written, At(grid, v));
      }
    }
  }

  /** Writing back two linked blocks keeps every written cell linked. */
  lemma WriteBackLinked(m: Map, start: Vector, written: set<Vector>, current: Block, neigh: Block)
    requires IsGrid(m) && InGrid(current.pos) && InGrid(neigh.pos)
    requires LinkedMap(m, start, written)
    requires Linked(start, written + {neigh.pos}, current) && Linked(start, written + {neigh.pos}, neigh)
    ensures LinkedMap(WriteBack(m, current, neigh), start, written + {neigh.pos})
  {
    var r := WriteBack(m, current, neigh);
    var w := written + {neigh.pos};
    forall v | v in w
      ensures InGrid(v) && At(r, v).pos == v && Linked(start, w, At(r, v))
    {
      if v != neigh.pos && v != current.pos {
        assert Vector(v.x, v.y) == v;
        assert At(r, v) == At(m, v);
        assert Linked(start, written, At(m, v));
      }
    }
  }

  /** The coordinates of the blocks in a set. */
  ghost function Positions(s: set<Block>): set<Vector>
  {
    set b | b in s :: b.pos
  }

  /** Removing one block removes at most its coordinate. */
  lemma PositionsRemove(s: set<Block>, c: Block)
    ensures Positions(s) <= Positions(s - {c}) + {c.pos}
  {
    forall q | q in Positions(s)
      ensures q in Positions(s - {c}) + {c.pos}
    {
      var b :| b in s && b.pos == q;
      if b != c {
        assert b in s - {c};
      }
    }
  }

  /** More blocks, more coordinates. */
  lemma PositionsGrow(s: set<Block>, t: set<Block>)
    requires s <= t
    ensures Positions(s) <= Positions(t)
  {
    forall q | q in Positions(s)
      ensures q in Positions(t)
    {
      var b :| b in s && b.pos == q;
      assert b in t;
    }
  }

  /** The relaxed copies of the blocks in `ns` that are not in the closed set, collected in list order. */
  ghost function RelaxedCopies(current: Block, ns: seq<Block>, closed: set<Block>, destination: Vector): set<Block>
    decreases |ns|
  {
    if |ns| == 0 then {}
    else
      var last := ns[|ns| - 1];
      RelaxedCopies(current, ns[..|ns| - 1], closed, destination)
        + (if last in closed then {} else {Relaxed(current, last, destination)})
  }

  /** The relaxed copies are exactly the relaxations of the blocks of `ns` that are not closed. */
  lemma {:induction false} RelaxedCopiesAre(current: Block, ns: seq<Block>, closed: set<Block>, destination: Vector)
    ensures RelaxedCopies(current, ns, closed, destination)
      == set n | n in ns && n !in closed :: Relaxed(current, n, destination)
    decreases |ns|
  {
    var l := RelaxedCopies(current, ns, closed, destination);
    var r := set n | n in ns && n !in closed :: Relaxed(current, n, destination);
    if |ns| > 0 {
      var init, last := ns[..|ns| - 1], ns[|ns| - 1];
      assert ns == init + [last];
      RelaxedCopiesAre(current, init, closed, destination);
      forall b | b in l
        ensures b in r
      {
        if b !in RelaxedCopies(current, init, closed, destination) {
          assert last in ns;
        } else {
          var c :| c in init && c !in closed && b == Relaxed(current, c, destination);
          assert c in ns;
        }
      }
      forall b | b in r
        ensures b in l
      {
        var c :| c in ns && c !in closed && b == Relaxed(current, c, destination);
        if c != last {
          assert c in init;
        }
      }
    }
  }

  /** Each neighbour that is not closed contributes its relaxed copy. */
  lemma {:induction false} RelaxedCopiesHas(current: Block, ns: seq<Block>, closed: set<Block>, destination: Vector, n: Block)
    requires n in ns && n !in closed
    ensures Relaxed(current, n, destination) in RelaxedCopies(current, ns, closed, destination)
    decreases |ns|
  {
    var init, last := ns[..|ns| - 1], ns[|ns| - 1];
    assert ns == init + [last];
    if n != last {
      assert n in init;
      RelaxedCopiesHas(current, init, closed, destination, n);
    }
  }

  /** Extending a prefix of the neighbour list by one adds that neighbour's relaxed copy unless it is closed. */
  lemma RelaxedCopiesPrefix(current: Block, ns: seq<Block>, i: nat, closed: set<Block>, destination: Vector)
    requires i < |ns|
    ensures RelaxedCopies(current, ns[..i + 1], closed, destination)
      == RelaxedCopies(current, ns[..i], closed, destination) + (if ns[i] in closed then {} else {Relaxed(current, ns[i], destination)})
  {
    assert ns[..i + 1][..i] == ns[..i];
  }

  /**
    Every non-wall cell one step from a cell of `done` has been selected
    (its coordinate is in `selected`) or waits in the open set.
   */
  ghost predicate Explored(m: Map, done: set<Vector>, selected: set<Vector>, open: set<Block>)
    requires IsGrid(m)
  {
    forall p, k {:trigger Stepped(p, k)} | p in done && InGrid(p) && 0 <= k < |Offsets| ::
      At(m, Stepped(p, k)).isWall || Stepped(p, k) in selected || Stepped(p, k) in Positions(open)
  }

  /** Exploration survives selecting more cells and moving open coordinates into the selected ones. */
  lemma ExploredWeakens(m: Map, done: set<Vector>, selected: set<Vector>, open: set<Block>,
                        selected': set<Vector>, open': set<Block>)
    requires IsGrid(m) && Explored(m, done, selected, open)
    requires selected <= selected' && Positions(open) <= selected' + Positions(open')
    ensures Explored(m, done, selected', open')
  {
  }

  /** Explored cells can be pooled. */
  lemma ExploredUnion(m: Map, done: set<Vector>, done': set<Vector>, selected: set<Vector>, open: set<Block>)
    requires IsGrid(m) && Explored(m, done, selected, open) && Explored(m, done', selected, open)
    ensures Explored(m, done + done', selected, open)
  {
  }

  /** On a sound grid a cell records its own coordinate and the input's wall flag. */
  lemma CellFacts(m0: Map, m: Map, v: Vector)
    requires IsGrid(m0) && SoundMap(m0, m) && InGrid(v)
    ensures At(m, v).pos == v && At(m, v).isWall == At(m0, v).isWall
  {
    assert m[v.y][v.x].pos == v && Sound(m0, m[v.y][v.x]);
  }

  /**
    After `current` is expanded, the cell at offset `k` is a wall, or was
    selected (its block was closed), or waits in the open set (its relaxed
    copy was added).
   */
  lemma ExpandReaches(m0: Map, grid: Map, closed: set<Block>, selected: set<Vector>, open: set<Block>,
                      open': set<Block>, current: Block, destination: Vector, k: nat)
    requires IsGrid(m0) && SoundMap(m0, grid) && InGrid(current.pos) && k < |Offsets|
    requires forall b | b in closed :: b.pos in selected
    requires open + RelaxedCopies(current, Neighbours(grid, current.pos), closed, destination) <= open'
    ensures var v := Stepped(current.pos, k);
      At(m0, v).isWall || v in selected || v in Positions(open')
  {
    var v := Stepped(current.pos, k);
    CellFacts(m0, grid, v);
    var c := At(grid, v);
    if !c.isWall {
      CandidateAt(grid, current.pos, k);
      assert c == Candidates(grid, current.pos)[k];
      assert c in Neighbours(grid, current.pos);
      if c !in closed {
        RelaxedCopiesHas(current, Neighbours(grid, current.pos), closed, destination, c);
      }
    }
  }

  /** An expanded cell is explored. */
  lemma ExpandExplores(m0: Map, grid: Map, closed: set<Block>, selected: set<Vector>, open: set<Block>,
                       open': set<Block>, current: Block, destination: Vector)
    requires IsGrid(m0) && SoundMap(m0, grid) && InGrid(current.pos)
    requires forall b | b in closed :: b.pos in selected
    requires open + RelaxedCopies(current, Neighbours(grid, current.pos), closed, destination) <= open'
    ensures Explored(m0, {current.pos}, selected, open')
  {
    forall k | 0 <= k < |Offsets|
      ensures var v := Stepped(current.pos, k);
        At(m0, v).isWall || v in selected || v in Positions(open')
    {
      ExpandReaches(m0, grid, closed, selected, open, open', current, destination, k);
    }
    ExploredOne(m0, current.pos, selected, open');
  }

  /** A single cell is explored once each of its four steps is. */
  lemma ExploredOne(m: Map, p: Vector, selected: set<Vector>, open: set<Block>)
    requires IsGrid(m) && InGrid(p)
    requires forall k | 0 <= k < |Offsets| ::
      At(m, Stepped(p, k)).isWall || Stepped(p, k) in selected || Stepped(p, k) in Positions(open)
    ensures Explored(m, {p}, selected, open)
  {
  }

  /**
    Selecting `current` from the open set and expanding it keeps every
    selected cell explored.
   */
  lemma ExpandKeepsExplored(m0: Map, selected: set<Vector>, open: set<Block>, current: Block, open': set<Block>)
    requires IsGrid(m0) && InGrid(current.pos)
    requires Explored(m0, selected, selected, open)
    requires Explored(m0, {current.pos}, selected + {current.pos}, open')
    requires open - {current} <= open'
    ensures Explored(m0, selected + {current.pos}, selected + {current.pos}, open')
  {
    var selected' := selected + {current.pos};
    PositionsRemove(open, current);
    PositionsGrow(open - {current}, open');
    ExploredWeakens(m0, selected, selected, open, selected', open');
    ExploredUnion(m0, selected, {current.pos}, selected', open');
  }

  /** A walk from `start` to `destination` whose cells after the first are no walls. */
  ghost predicate IsOpenWalk(m: Map, w: seq<Vector>, start: Vector, destination: Vector)
    requires IsGrid(m)
  {
    && |w| > 0 && w[0] == start && w[|w| - 1] == destination && IsWalk(w)
    && forall i | 0 < i < |w| :: !At(m, w[i]).isWall
  }

  /** The destination can be reached from `start` by unit steps through cells that are no walls. */
  ghost predicate Reachable(m: Map, start: Vector, destination: Vector)
    requires IsGrid(m)
  {
    exists w :: IsOpenWalk(m, w, start, destination)
  }

  /** With nothing left open, every open walk from a selected `start` stays among the selected cells. */
  lemma {:induction false} ExploredCoversWalk(m: Map, selected: set<Vector>, w: seq<Vector>,
                                              start: Vector, destination: Vector, i: nat)
    requires IsGrid(m) && Explored(m, selected, selected, {}) && start in selected
    requires IsOpenWalk(m, w, start, destination) && i < |w|
    ensures w[i] in selected
    decreases i
  {
    if i > 0 {
      ExploredCoversWalk(m, selected, w, start, destination, i - 1);
      StepIsStepped(w[i - 1], w[i]);
      var k :| 0 <= k < |Offsets| && Stepped(w[i - 1], k) == w[i];
      assert Positions({}) == {};
    }
  }

  /** When the open set runs dry, a destination never selected is unreachable. */
  lemma ExhaustedIsUnreachable(m: Map, selected: set<Vector>, start: Vector, destination: Vector)
    requires IsGrid(m) && Explored(m, selected, selected, {})
    requires start in selected && destination !in selected
    ensures !Reachable(m, start, destination)
  {
    if Reachable(m, start, destination) {
      var w :| IsOpenWalk(m, w, start, destination);
      ExploredCoversWalk(m, selected, w, start, destination, |w| - 1);
    }
  }

  /** Cells that differ between `grid` and `grid'` are `c` or one wrapped step from it. */
  ghost predicate ChangedAround(grid: Map, grid': Map, c: Vector)
    requires IsGrid(grid) && IsGrid(grid')
  {
    forall y, x | 0 <= y < GridRows && 0 <= x < GridCols ::
      grid'[y][x] == grid[y][x] || Vector(x, y) == c || IsWrappedStep(c, Vector(x, y))
  }

  /** One write-back keeps the changes around `current`. */
  lemma WriteBackAround(grid: Map, grid': Map, current: Block, neigh: Block)
    requires IsGrid(grid) && IsGrid(grid') && InGrid(current.pos) && InGrid(neigh.pos)
    requires IsWrappedStep(current.pos, neigh.pos) && ChangedAround(grid, grid', current.pos)
    ensures ChangedAround(grid, WriteBack(grid', current, neigh), current.pos)
  {
    var r := WriteBack(grid', current, neigh);
    forall y, x | 0 <= y < GridRows && 0 <= x < GridCols
      ensures r[y][x] == grid[y][x] || Vector(x, y) == current.pos || IsWrappedStep(current.pos, Vector(x, y))
    {
      if Vector(x, y) != current.pos && Vector(x, y) != neigh.pos {
        assert r[y][x] == grid'[y][x];
      }
    }
  }

  /**
    The inner loop of `find_path` for one selected block `current`: for every
    neighbour that is not (by value) in the closed set, relax it, write
    `current` and the relaxed neighbour back into the grid, and insert it
    into the open set unless it is already there and some open block has a
    smaller `g`. That test can only skip a block the open set already holds,
    so the open set grows by exactly the relaxed copies.
   */
  method Expand(ghost m0: Map, grid: Map, open: set<Block>, closed: set<Block>,
                current: Block, destination: Vector, ghost start: Vector, ghost written: set<Vector>)
      returns (grid': Map, open': set<Block>, ghost written': set<Vector>)
    requires IsGrid(m0) && SoundMap(m0, grid) && InGrid(destination)
    requires Sound(m0, current) && forall b | b in open :: Sound(m0, b)
    requires LinkedMap(grid, start, written) && Linked(start, written, current)
    requires forall b | b in open :: Linked(start, written, b)
    ensures SoundMap(m0, grid') && forall b | b in open' :: Sound(m0, b)
    ensures open' == open + RelaxedCopies(current, Neighbours(grid, current.pos), closed, destination)
    ensures open <= open'
    ensures forall n | n in Neighbours(grid, current.pos) :: InGrid(n.pos) && IsWrappedStep(current.pos, n.pos)
    ensures forall n | n in Neighbours(grid, current.pos) && n !in closed ::
      At(grid', n.pos) == Relaxed(current, n, destination)
    ensures (exists n | n in Neighbours(grid, current.pos) :: n !in closed) ==> At(grid', current.pos) == current
    ensures (forall n | n in Neighbours(grid, current.pos) :: n in closed) ==> grid' == grid
    ensures forall y, x | 0 <= y < GridRows && 0 <= x < GridCols && Vector(x, y) != current.pos &&
        (forall n | n in Neighbours(grid, current.pos) && n !in closed :: n.pos != Vector(x, y)) ::
      grid'[y][x] == grid[y][x]
    ensures ChangedAround(grid, grid', current.pos)
    ensures written <= written' && LinkedMap(grid', start, written')
    ensures forall b | b in open' :: Linked(start, written', b)
  {
    var neighbours := Neighbours(grid, current.pos);
    NeighboursFacts(m0, grid, current);
    grid', open', written' := RelaxAll(m0, grid, open, closed, current, destination, start, written, neighbours);
    ExpandEnds(m0, grid, open, closed, current, destination, start, written, neighbours,
               grid', open', written');
    ExpandEndsFrame(m0, grid, open, closed, current, destination, start, written, neighbours,
                    grid', open', written');
    ExpandEndsWrites(m0, grid, open, closed, current, destination, start, written, neighbours,
                     grid', open', written');
    NeighbourListSteps(m0, current, neighbours);
    CurrentWrittenEnds(grid, grid', current, neighbours, closed);
    WrittenOnlyEnds(grid, grid', current, neighbours, closed);
  }

  /** The inner loop over the neighbour list `ns`. */
  method RelaxAll(ghost m0: Map, grid: Map, open: set<Block>, closed: set<Block>, current: Block,
                  destination: Vector, ghost start: Vector, ghost written: set<Vector>, ns: seq<Block>)
      returns (grid': Map, open': set<Block>, ghost written': set<Vector>)
    requires IsGrid(m0) && SoundMap(m0, grid)
    requires Sound(m0, current) && forall b | b in open :: Sound(m0, b)
    requires LinkedMap(grid, start, written) && Linked(start, written, current)
    requires forall b | b in open :: Linked(start, written, b)
    requires NeighbourList(m0, current, ns)
    ensures Expanding(m0, grid, open, closed, current, destination, start, written, ns, |ns|,
                      grid', open', written')
    ensures IsGrid(grid') && CurrentWritten(grid, grid', current, ns, |ns|, closed)
    ensures WrittenOnly(grid, grid', current, ns, |ns|, closed)
  {
    ExpandBegins(m0, grid, open, closed, current, destination, start, written, ns);
    grid', open', written' := grid, open, written + {current.pos};
    var i := 0;
    while i < |ns|
      invariant Expanding(m0, grid, open, closed, current, destination, start, written, ns, i,
                          grid', open', written')
      invariant IsGrid(grid') && CurrentWritten(grid, grid', current, ns, i, closed)
      invariant WrittenOnly(grid, grid', current, ns, i, closed)
    {
      grid', open', written' := RelaxNeighbour(m0, grid, open, closed, current, destination, start, written,
                                               ns, i, grid', open', written');
      i := i + 1;
    }
  }

  /**
    One round of the inner loop: pass over the `i`th neighbour if it is
    closed; otherwise relax it, write it and `current` back into the grid,
    and insert it into the open set.
   */
  method RelaxNeighbour(ghost m0: Map, grid: Map, open: set<Block>, closed: set<Block>, current: Block,
                        destination: Vector, ghost start: Vector, ghost written: set<Vector>, ns: seq<Block>, i: nat,
                        grid': Map, open': set<Block>, ghost written': set<Vector>)
      returns (grid'': Map, open'': set<Block>, ghost written'': set<Vector>)
    requires IsGrid(m0) && IsGrid(grid) && i < |ns|
    requires Sound(m0, current) && Linked(start, written, current) && NeighbourList(m0, current, ns)
    requires Expanding(m0, grid, open, closed, current, destination, start, written, ns, i, grid', open', written')
    requires IsGrid(grid') && CurrentWritten(grid, grid', current, ns, i, closed)
    requires WrittenOnly(grid, grid', current, ns, i, closed)
    ensures Expanding(m0, grid, open, closed, current, destination, start, written, ns, i + 1,
                      grid'', open'', written'')
    ensures IsGrid(grid'') && CurrentWritten(grid, grid'', current, ns, i + 1, closed)
    ensures WrittenOnly(grid, grid'', current, ns, i + 1, closed)
  {
    var neigh := ns[i];
    if neigh in closed {
      ExpandSkips(m0, grid, open, closed, current, destination, start, written, ns, i, grid', open', written');
      RelaxedSomeSkips(ns, i, closed);
      WrittenOnlySkips(grid, grid', current, ns, i, closed);
      return grid', open', written';
    }
    var relaxed := Relaxed(current, neigh, destination);
    ExpandRelaxes(m0, grid, open, closed, current, destination, start, written, ns, i, grid', open', written');
    CurrentWrittenRelaxes(grid, grid', current, ns, i, closed, relaxed);
    WrittenOnlyRelaxes(grid, grid', current, ns, i, closed, relaxed);
    grid'' := WriteBack(grid', current, relaxed);
    written'' := written' + {relaxed.pos};
    open'' := InsertOpen(open', relaxed);
  }

  /**
    The inner loop after its first `i` neighbours: the grid and the open
    set are sound and linked, the open set has gained the relaxed copies so
    far, each sits in its cell, and only cells around `current` changed.
   */
  ghost predicate Expanding(m0: Map, grid: Map, open: set<Block>, closed: set<Block>, current: Block,
                            destination: Vector, start: Vector, written: set<Vector>, ns: seq<Block>, i: nat,
                            grid': Map, open': set<Block>, written': set<Vector>)
    requires IsGrid(m0) && IsGrid(grid)
  {
    && i <= |ns|
    && SoundMap(m0, grid') && (forall b | b in open' :: Sound(m0, b))
    && open + RelaxedCopies(current, ns[..i], closed, destination) <= open'
    && open' <= open + RelaxedCopies(current, ns[..i], closed, destination)
    && (forall j | 0 <= j < i && ns[j] !in closed ::
          InGrid(ns[j].pos) && At(grid', ns[j].pos) == Relaxed(current, ns[j], destination))
    && ChangedAround(grid, grid', current.pos)
    && written <= written' && current.pos in written' && LinkedMap(grid', start, written')
    && (forall b | b in open' :: Linked(start, written', b))
  }

  /** Some neighbour among the first `i` is not closed, so the loop has relaxed it. */
  ghost predicate RelaxedSome(ns: seq<Block>, i: nat, closed: set<Block>)
    requires i <= |ns|
  {
    exists j | 0 <= j < i :: ns[j] !in closed
  }

  /**
    The write-back of `current` into its own cell: it has happened once a
    neighbour was relaxed, and until then the grid is untouched.
   */
  ghost predicate CurrentWritten(grid: Map, grid': Map, current: Block, ns: seq<Block>, i: nat, closed: set<Block>)
    requires IsGrid(grid') && InGrid(current.pos) && i <= |ns|
  {
    && (RelaxedSome(ns, i, closed) ==> At(grid', current.pos) == current)
    && (!RelaxedSome(ns, i, closed) ==> grid' == grid)
  }

  /** Passing over a closed neighbour relaxes nothing new. */
  lemma RelaxedSomeSkips(ns: seq<Block>, i: nat, closed: set<Block>)
    requires i < |ns| && ns[i] in closed
    ensures RelaxedSome(ns, i + 1, closed) == RelaxedSome(ns, i, closed)
  {
    if RelaxedSome(ns, i + 1, closed) {
      var j :| 0 <= j < i + 1 && ns[j] !in closed;
      assert j < i;
    }
  }

  /** After a relaxation through `current`, `current` sits in its own cell. */
  lemma CurrentWrittenRelaxes(grid: Map, grid': Map, current: Block, ns: seq<Block>, i: nat, closed: set<Block>,
                              relaxed: Block)
    requires IsGrid(grid') && InGrid(current.pos) && InGrid(relaxed.pos) && i < |ns|
    requires ns[i] !in closed && relaxed.pos != current.pos
    ensures CurrentWritten(grid, WriteBack(grid', current, relaxed), current, ns, i + 1, closed)
  {
    assert RelaxedSome(ns, i + 1, closed) by {
      assert 0 <= i < i + 1 && ns[i] !in closed;
    }
  }

  /** Some neighbour among the first `i` is not closed and sits at `v`. */
  ghost predicate RelaxedAt(ns: seq<Block>, i: nat, closed: set<Block>, v: Vector)
    requires i <= |ns|
  {
    exists j | 0 <= j < i :: ns[j] !in closed && ns[j].pos == v
  }

  /**
    The only cells the loop has written: `current`'s own and those of the
    neighbours relaxed so far. Closed neighbours' cells keep their blocks.
   */
  ghost predicate WrittenOnly(grid: Map, grid': Map, current: Block, ns: seq<Block>, i: nat, closed: set<Block>)
    requires IsGrid(grid) && IsGrid(grid') && i <= |ns|
  {
    forall y, x | 0 <= y < GridRows && 0 <= x < GridCols &&
        Vector(x, y) != current.pos && !RelaxedAt(ns, i, closed, Vector(x, y)) ::
      grid'[y][x] == grid[y][x]
  }

  /** Passing over a closed neighbour writes no cell. */
  lemma WrittenOnlySkips(grid: Map, grid': Map, current: Block, ns: seq<Block>, i: nat, closed: set<Block>)
    requires IsGrid(grid) && IsGrid(grid') && i < |ns| && ns[i] in closed
    requires WrittenOnly(grid, grid', current, ns, i, closed)
    ensures WrittenOnly(grid, grid', current, ns, i + 1, closed)
  {
  }

  /** A relaxation writes `current`'s cell and the relaxed neighbour's, and no other. */
  lemma WrittenOnlyRelaxes(grid: Map, grid': Map, current: Block, ns: seq<Block>, i: nat, closed: set<Block>,
                           relaxed: Block)
    requires IsGrid(grid) && IsGrid(grid') && InGrid(current.pos) && InGrid(relaxed.pos) && i < |ns|
    requires ns[i] !in closed && relaxed.pos == ns[i].pos
    requires WrittenOnly(grid, grid', current, ns, i, closed)
    ensures WrittenOnly(grid, WriteBack(grid', current, relaxed), current, ns, i + 1, closed)
  {
    var r := WriteBack(grid', current, relaxed);
    forall y, x | 0 <= y < GridRows && 0 <= x < GridCols &&
        Vector(x, y) != current.pos && !RelaxedAt(ns, i + 1, closed, Vector(x, y))
      ensures r[y][x] == grid[y][x]
    {
      assert Vector(x, y) != relaxed.pos;
    }
  }

  /** After the whole list, a cell that is neither `current`'s nor a relaxed neighbour's is untouched. */
  lemma WrittenOnlyEnds(grid: Map, grid': Map, current: Block, ns: seq<Block>, closed: set<Block>)
    requires IsGrid(grid) && IsGrid(grid') && WrittenOnly(grid, grid', current, ns, |ns|, closed)
    ensures forall y, x | 0 <= y < GridRows && 0 <= x < GridCols && Vector(x, y) != current.pos &&
        (forall n | n in ns && n !in closed :: n.pos != Vector(x, y)) ::
      grid'[y][x] == grid[y][x]
  {
  }

  /** What the inner loop knows about the neighbour list. */
  ghost predicate NeighbourList(m0: Map, current: Block, ns: seq<Block>)
    requires IsGrid(m0)
  {
    && (forall j | 0 <= j < |ns| ::
          Sound(m0, ns[j]) && !ns[j].isWall && IsWrappedStep(current.pos, ns[j].pos) && ns[j].pos != current.pos)
    && DistinctPositions(ns)
  }

  /** The inner loop's state before the first neighbour. */
  lemma ExpandBegins(m0: Map, grid: Map, open: set<Block>, closed: set<Block>, current: Block,
                     destination: Vector, start: Vector, written: set<Vector>, ns: seq<Block>)
    requires IsGrid(m0) && SoundMap(m0, grid)
    requires Sound(m0, current) && forall b | b in open :: Sound(m0, b)
    requires LinkedMap(grid, start, written) && Linked(start, written, current)
    requires forall b | b in open :: Linked(start, written, b)
    ensures Expanding(m0, grid, open, closed, current, destination, start, written, ns, 0,
                      grid, open, written + {current.pos})
  {
    CurrentLinked(m0, grid, start, written, current);
    LinkedGrows(start, written, written + {current.pos}, open);
    assert ns[..0] == [];
    assert RelaxedCopies(current, [], closed, destination) == {};
  }

  /** A closed neighbour is passed over. */
  lemma ExpandSkips(m0: Map, grid: Map, open: set<Block>, closed: set<Block>, current: Block,
                    destination: Vector, start: Vector, written: set<Vector>, ns: seq<Block>, i: nat,
                    grid': Map, open': set<Block>, written': set<Vector>)
    requires IsGrid(m0) && IsGrid(grid) && i < |ns| && ns[i] in closed
    requires Expanding(m0, grid, open, closed, current, destination, start, written, ns, i, grid', open', written')
    ensures Expanding(m0, grid, open, closed, current, destination, start, written, ns, i + 1, grid', open', written')
  {
    RelaxedCopiesPrefix(current, ns, i, closed, destination);
  }

  /** A neighbour that is not closed is relaxed, written back and added to the open set. */
  lemma ExpandRelaxes(m0: Map, grid: Map, open: set<Block>, closed: set<Block>, current: Block,
                      destination: Vector, start: Vector, written: set<Vector>, ns: seq<Block>, i: nat,
                      grid': Map, open': set<Block>, written': set<Vector>)
    requires IsGrid(m0) && IsGrid(grid) && i < |ns| && ns[i] !in closed
    requires Sound(m0, current) && Linked(start, written, current) && NeighbourList(m0, current, ns)
    requires Expanding(m0, grid, open, closed, current, destination, start, written, ns, i, grid', open', written')
    ensures var relaxed := Relaxed(current, ns[i], destination);
      Expanding(m0, grid, open, closed, current, destination, start, written, ns, i + 1,
                WriteBack(grid', current, relaxed), open' + {relaxed}, written' + {relaxed.pos})
  {
    var neigh := ns[i];
    assert Sound(m0, neigh) && !neigh.isWall && IsWrappedStep(current.pos, neigh.pos);
    RelaxedCopiesPrefix(current, ns, i, closed, destination);
    RelaxKeepsSound(m0, grid', open', current, neigh, destination);
    RelaxKeepsWrites(grid', current, ns, i, closed, destination);
    WriteBackAround(grid, grid', current, Relaxed(current, neigh, destination));
    RelaxKeepsLinked(grid', start, written, written', open', current, neigh, destination);
  }

  /** One relaxation keeps the grid and the open set sound. */
  lemma RelaxKeepsSound(m0: Map, grid: Map, open: set<Block>, current: Block, neigh: Block, destination: Vector)
    requires IsGrid(m0) && SoundMap(m0, grid) && (forall b | b in open :: Sound(m0, b))
    requires Sound(m0, current) && Sound(m0, neigh) && IsWrappedStep(current.pos, neigh.pos)
    ensures var relaxed := Relaxed(current, neigh, destination);
      SoundMap(m0, WriteBack(grid, current, relaxed)) && forall b | b in open + {relaxed} :: Sound(m0, b)
  {
    var relaxed := Relaxed(current, neigh, destination);
    RelaxedSound(m0, current, neigh, destination);
    StoreSound(m0, grid, current);
    StoreSound(m0, Store(grid, current), relaxed);
  }

  /** One relaxation writes its neighbour's cell and keeps the cells written for earlier neighbours. */
  lemma RelaxKeepsWrites(grid: Map, current: Block, ns: seq<Block>, i: nat, closed: set<Block>, destination: Vector)
    requires IsGrid(grid) && InGrid(current.pos) && i < |ns|
    requires forall j | 0 <= j < |ns| :: InGrid(ns[j].pos) && ns[j].pos != current.pos
    requires DistinctPositions(ns)
    requires forall j | 0 <= j < i && ns[j] !in closed ::
      InGrid(ns[j].pos) && At(grid, ns[j].pos) == Relaxed(current, ns[j], destination)
    ensures var grid' := WriteBack(grid, current, Relaxed(current, ns[i], destination));
      forall j | 0 <= j < i + 1 && ns[j] !in closed ::
        InGrid(ns[j].pos) && At(grid', ns[j].pos) == Relaxed(current, ns[j], destination)
  {
    var relaxed := Relaxed(current, ns[i], destination);
    var grid' := WriteBack(grid, current, relaxed);
    forall j | 0 <= j < i + 1 && ns[j] !in closed
      ensures InGrid(ns[j].pos) && At(grid', ns[j].pos) == Relaxed(current, ns[j], destination)
    {
      if j < i {
        var v := ns[j].pos;
        assert v != relaxed.pos && v != current.pos;
        assert Vector(v.x, v.y) == v;
      }
    }
  }

  /** One relaxation keeps every written cell and every open block linked, and writes the neighbour's cell. */
  lemma RelaxKeepsLinked(grid: Map, start: Vector, written: set<Vector>, written': set<Vector>, open: set<Block>,
                         current: Block, neigh: Block, destination: Vector)
    requires IsGrid(grid) && InGrid(current.pos) && InGrid(neigh.pos)
    requires written <= written' && current.pos in written' && LinkedMap(grid, start, written')
    requires forall b | b in open :: Linked(start, written', b)
    requires Linked(start, written, current) && !neigh.isWall && IsWrappedStep(current.pos, neigh.pos)
    ensures var relaxed := Relaxed(current, neigh, destination);
      var w := written' + {relaxed.pos};
      && written <= w && current.pos in w && LinkedMap(WriteBack(grid, current, relaxed), start, w)
      && forall b | b in open + {relaxed} :: Linked(start, w, b)
  {
    var relaxed := Relaxed(current, neigh, destination);
    var w := written' + {relaxed.pos};
    WriteBackLinked(grid, start, written', current, relaxed);
    LinkedGrows(start, written', w, open);
    assert Linked(start, w, relaxed);
  }

  /** After the last neighbour the inner loop's state gives `Expand`'s contract. */
  lemma ExpandEnds(m0: Map, grid: Map, open: set<Block>, closed: set<Block>, current: Block,
                   destination: Vector, start: Vector, written: set<Vector>, ns: seq<Block>,
                   grid': Map, open': set<Block>, written': set<Vector>)
    requires IsGrid(m0) && IsGrid(grid)
    requires NeighbourList(m0, current, ns)
    requires Expanding(m0, grid, open, closed, current, destination, start, written, ns, |ns|, grid', open', written')
    ensures SoundMap(m0, grid') && forall b | b in open' :: Sound(m0, b)
    ensures open' == open + RelaxedCopies(current, ns, closed, destination) && open <= open'
  {
    assert ns[..|ns|] == ns;
  }

  /** The neighbours the inner loop went over are in the grid, one wrapped step from `current`. */
  lemma NeighbourListSteps(m0: Map, current: Block, ns: seq<Block>)
    requires IsGrid(m0) && NeighbourList(m0, current, ns)
    ensures forall n | n in ns :: InGrid(n.pos) && IsWrappedStep(current.pos, n.pos)
  {
  }

  /** After the last neighbour, every neighbour that was not closed sits relaxed in its cell. */
  lemma ExpandEndsWrites(m0: Map, grid: Map, open: set<Block>, closed: set<Block>, current: Block,
                         destination: Vector, start: Vector, written: set<Vector>, ns: seq<Block>,
                         grid': Map, open': set<Block>, written': set<Vector>)
    requires IsGrid(m0) && IsGrid(grid)
    requires Expanding(m0, grid, open, closed, current, destination, start, written, ns, |ns|, grid', open', written')
    ensures IsGrid(grid')
    ensures forall n | n in ns && n !in closed :: InGrid(n.pos) && At(grid', n.pos) == Relaxed(current, n, destination)
  {
    forall n | n in ns && n !in closed
      ensures InGrid(n.pos) && At(grid', n.pos) == Relaxed(current, n, destination)
    {
      var j :| 0 <= j < |ns| && ns[j] == n;
    }
  }

  /** After the last neighbour: what changed in the grid, and the links back towards `start`. */
  lemma ExpandEndsFrame(m0: Map, grid: Map, open: set<Block>, closed: set<Block>, current: Block,
                        destination: Vector, start: Vector, written: set<Vector>, ns: seq<Block>,
                        grid': Map, open': set<Block>, written': set<Vector>)
    requires IsGrid(m0) && IsGrid(grid)
    requires Expanding(m0, grid, open, closed, current, destination, start, written, ns, |ns|, grid', open', written')
    ensures ChangedAround(grid, grid', current.pos)
    ensures written <= written' && LinkedMap(grid', start, written')
    ensures forall b | b in open' :: Linked(start, written', b)
  {
  }

  /**
    After the whole list, `current` sits in its own cell if any neighbour
    was not closed, and otherwise the grid is untouched.
   */
  lemma CurrentWrittenEnds(grid: Map, grid': Map, current: Block, ns: seq<Block>, closed: set<Block>)
    requires IsGrid(grid') && InGrid(current.pos) && CurrentWritten(grid, grid', current, ns, |ns|, closed)
    ensures (exists n | n in ns :: n !in closed) ==> At(grid', current.pos) == current
    ensures (forall n | n in ns :: n in closed) ==> grid' == grid
  {
    RelaxedSomeAll(ns, closed);
  }

  /** Over the whole list, some neighbour was relaxed exactly when one is not closed. */
  lemma RelaxedSomeAll(ns: seq<Block>, closed: set<Block>)
    ensures RelaxedSome(ns, |ns|, closed) <==> exists n | n in ns :: n !in closed
  {
    if exists n | n in ns :: n !in closed {
      var n :| n in ns && n !in closed;
      var j :| 0 <= j < |ns| && ns[j] == n;
      assert RelaxedSome(ns, |ns|, closed);
    }
    if RelaxedSome(ns, |ns|, closed) {
      var j :| 0 <= j < |ns| && ns[j] !in closed;
      assert ns[j] in ns;
    }
  }

  /** The neighbours of a sound block on a sound grid: sound, no walls, one step away, at distinct positions. */
  lemma NeighboursFacts(m0: Map, grid: Map, current: Block)
    requires IsGrid(m0) && SoundMap(m0, grid) && Sound(m0, current)
    ensures NeighbourList(m0, current, Neighbours(grid, current.pos))
  {
    var ns := Neighbours(grid, current.pos);
    forall j | 0 <= j < |ns|
      ensures Sound(m0, ns[j]) && !ns[j].isWall && IsWrappedStep(current.pos, ns[j].pos) && ns[j].pos != current.pos
    {
      NeighbourSound(m0, grid, current, ns[j]);
      WrappedStepMoves(current.pos, ns[j].pos);
    }
    NeighboursDistinct(grid, current.pos);
  }

  /** A neighbour taken from a sound grid is sound, open, and one step from the expanded block. */
  lemma NeighbourSound(m0: Map, grid: Map, current: Block, b: Block)
    requires IsGrid(m0) && SoundMap(m0, grid) && Sound(m0, current)
    requires b in Neighbours(grid, current.pos)
    ensures Sound(m0, b) && !b.isWall && IsWrappedStep(current.pos, b.pos)
  {
    NeighbourIsStep(grid, current.pos, b);
  }

  /** Relaxing a sound neighbour through a sound block one step away gives a sound block. */
  lemma RelaxedSound(m0: Map, current: Block, neigh: Block, destination: Vector)
    requires IsGrid(m0) && Sound(m0, current) && Sound(m0, neigh)
    requires IsWrappedStep(current.pos, neigh.pos)
    ensures Sound(m0, Relaxed(current, neigh, destination))
  {
  }

  /** Writing a sound block at its own cell keeps the grid sound. */
  lemma StoreSound(m0: Map, m: Map, b: Block)
    requires IsGrid(m0) && SoundMap(m0, m) && Sound(m0, b)
    ensures SoundMap(m0, Store(m, b))
  {
    var r: Map := Store(m, b);
    forall y, x | 0 <= y < GridRows && 0 <= x < GridCols
      ensures r[y][x].pos == Vector(x, y) && InGrid(r[y][x].parentPos) && Sound(m0, r[y][x])
    {
      if Vector(x, y) == b.pos {
        assert r[y][x] == b;
      } else {
        assert r[y][x] == m[y][x];
      }
    }
  }

  /**
    On a sound grid each link of a parent chain is a wrapped unit step, unless
    it is a parent pointer the input grid already held.
   */
  lemma ChainSteps(m0: Map, m: Map, path: seq<Vector>, start: Vector, destination: Vector)
    requires IsGrid(m0) && SoundMap(m0, m) && IsParentChain(m, path, start, destination)
    ensures forall i {:trigger ParentOf(m0, path[i])} | 0 <= i < |path| - 1 ::
      path[i + 1] == ParentOf(m0, path[i]) || IsWrappedStep(path[i + 1], path[i])
    ensures |path| > 0 ==>
      var last := path[|path| - 1];
      start == ParentOf(m0, last) || IsWrappedStep(start, last)
  {
    forall i | 0 <= i < |path| - 1
      ensures path[i + 1] == ParentOf(m0, path[i]) || IsWrappedStep(path[i + 1], path[i])
    {
      assert path[i + 1] == ParentOf(m, path[i]);
      CellSound(m0, m, path[i]);
    }
    if |path| > 0 {
      CellSound(m0, m, path[|path| - 1]);
    }
  }

  /** On a sound grid a cell's parent is the input's or a wrapped step away. */
  lemma CellSound(m0: Map, m: Map, v: Vector)
    requires IsGrid(m0) && SoundMap(m0, m) && InGrid(v)
    ensures ParentOf(m, v) == ParentOf(m0, v) || IsWrappedStep(ParentOf(m, v), v)
  {
    assert Sound(m0, m[v.y][v.x]);
  }

  /** No cell repeats on a parent chain. */
  lemma ParentChainIsSimpleAll(m: Map, path: seq<Vector>, start: Vector, destination: Vector)
    requires IsGrid(m) && IsParentChain(m, path, start, destination)
    ensures forall i, j | 0 <= i < j < |path| :: path[i] != path[j]
  {
    forall i, j | 0 <= i < j < |path|
      ensures path[i] != path[j]
    {
      ParentChainIsSimple(m, path, start, destination, i, j);
    }
  }

  /**
    The walk so far, about to visit `next`: a parent chain from the
    destination that has not yet met `start`.
   */
  ghost predicate PartialChain(m: Map, walk: seq<Vector>, next: Vector, start: Vector, destination: Vector)
    requires IsGrid(m)
  {
    && InGrid(next)
    && (forall i | 0 <= i < |walk| :: InGrid(walk[i]) && walk[i] != start)
    && (|walk| == 0 ==> next == destination)
    && (|walk| > 0 ==> walk[0] == destination && next == ParentOf(m, walk[|walk| - 1]))
    && (forall i {:trigger ParentOf(m, walk[i])} | 0 <= i < |walk| - 1 :: walk[i + 1] == ParentOf(m, walk[i]))
  }

  /** Visiting `next` (which is not `start`) extends the chain by one link. */
  lemma PartialChainStep(m: Map, walk: seq<Vector>, next: Vector, start: Vector, destination: Vector)
    requires IsGrid(m) && PartialChain(m, walk, next, start, destination) && next != start
    requires InGrid(ParentOf(m, next))
    ensures PartialChain(m, walk + [next], ParentOf(m, next), start, destination)
  {
    var w := walk + [next];
    assert w[|w| - 1] == next;
    assert w[0] == destination by {
      if |walk| > 0 {
        assert w[0] == walk[0];
      }
    }
    forall i | 0 <= i < |w|
      ensures InGrid(w[i]) && w[i] != start
    {
      if i < |walk| {
        assert w[i] == walk[i];
      }
    }
    forall i | 0 <= i < |w| - 1
      ensures w[i + 1] == ParentOf(m, w[i])
    {
      if i < |walk| - 1 {
        assert w[i + 1] == walk[i + 1] == ParentOf(m, walk[i]);
      } else {
        assert w[i] == walk[|walk| - 1] && w[i + 1] == next;
      }
    }
  }

  /** A walk about to visit `start` is a complete parent chain, empty exactly when `start` is the destination. */
  lemma PartialChainCloses(m: Map, walk: seq<Vector>, start: Vector, destination: Vector)
    requires IsGrid(m) && PartialChain(m, walk, start, start, destination)
    ensures IsParentChain(m, walk, start, destination)
    ensures walk == [] <==> start == destination
  {
  }

  /** The cell reached from `v` by following recorded parent pointers `k` times. */
  ghost function Hop(m: Map, v: Vector, k: nat): (r: Vector)
    requires WellFormed(m) && InGrid(v)
    ensures InGrid(r)
  {
    if k == 0 then v else ParentOf(m, Hop(m, v, k - 1))
  }

  /** Where the reconstruction loop stands after `n` links: it has not met `start` on the way. */
  ghost predicate HopsMiss(m: Map, destination: Vector, start: Vector, n: nat)
    requires WellFormed(m) && InGrid(destination)
  {
    forall k | 0 <= k < n :: Hop(m, destination, k) != start
  }

  /** Following one more parent pointer from a cell that is not `start`. */
  lemma HopsMissStep(m: Map, destination: Vector, start: Vector, n: nat)
    requires WellFormed(m) && InGrid(destination)
    requires HopsMiss(m, destination, start, n) && Hop(m, destination, n) != start
    ensures HopsMiss(m, destination, start, n + 1)
    ensures Hop(m, destination, n + 1) == ParentOf(m, Hop(m, destination, n))
  {
  }

  /** Links `0..n-1` and link `n` all miss `start`, so none of links `0..n` is `start`. */
  lemma HopsMissEnds(m: Map, destination: Vector, start: Vector, n: nat)
    requires WellFormed(m) && InGrid(destination)
    requires HopsMiss(m, destination, start, n) && Hop(m, destination, n) != start
    ensures forall k | 0 <= k <= n :: Hop(m, destination, k) != start
  {
  }

  /**
    The reconstruction loop of `find_path`: from the destination's cell,
    collect each position and move to its recorded parent, until `start`.
    The source's loop has no bound; here `fuel` links at most are followed,
    and `None` says that `fuel` links from the destination never met `start`.
   */
  method WalkParents(grid: Map, start: Vector, destination: Vector, fuel: nat) returns (path: Option<seq<Vector>>)
    requires WellFormed(grid) && InGrid(start) && InGrid(destination)
    ensures start == destination ==> path == Some([])
    ensures path.Some? ==> (path.value == [] <==> start == destination)
    ensures path.Some? ==> IsParentChain(grid, path.value, start, destination)
    ensures path.None? ==> forall k | 0 <= k <= fuel :: Hop(grid, destination, k) != start
  {
    var budget := fuel;
    var walk: seq<Vector> := [];
    var cell := At(grid, destination);
    ghost var hops: nat := 0;
    while cell.pos != start
      invariant InGrid(cell.pos) && cell == At(grid, cell.pos)
      invariant PartialChain(grid, walk, cell.pos, start, destination)
      invariant hops + budget == fuel && cell.pos == Hop(grid, destination, hops)
      invariant HopsMiss(grid, destination, start, hops)
      decreases budget
    {
      if budget == 0 {
        HopsMissEnds(grid, destination, start, fuel);
        return None;
      }
      HopsMissStep(grid, destination, start, hops);
      hops := hops + 1;
      budget := budget - 1;
      PartialChainStep(grid, walk, cell.pos, start, destination);
      walk := walk + [cell.pos];
      cell := At(grid, cell.parentPos);
    }
    PartialChainCloses(grid, walk, start, destination);
    return Some(walk);
  }

  /** The input grid is sound with respect to itself, cell by cell. */
  lemma InputIsSound(m: Map, v: Vector)
    requires WellFormed(m) && InGrid(v)
    ensures SoundMap(m, m) && Sound(m, At(m, v)) && At(m, v).pos == v
  {
    forall y, x | 0 <= y < GridRows && 0 <= x < GridCols
      ensures Sound(m, m[y][x])
    {
      assert m[y][x].pos == Vector(x, y);
    }
  }

  /**
    The search loop of `find_path`: select a minimal-`f` open block, move it
    to the closed set, stop at the destination, and otherwise expand it.
    The source does not guarantee the loop ends, so `fuel` bounds its
    iterations; `finished` is false when the fuel ran out first, and
    `reached` tells a stop at the destination from an empty open set.
    `written` holds the cells the loop wrote, each tied back towards `start`.
   */
  method Search(grid: Map, start: Vector, destination: Vector, fuel: nat)
      returns (finished: bool, reached: bool, grid': Map, ghost written: set<Vector>)
    requires WellFormed(grid) && InGrid(start) && InGrid(destination)
    ensures SoundMap(grid, grid')
    ensures reached ==> finished
    ensures start == destination && fuel > 0 ==> reached && grid' == grid
    ensures finished && !reached ==> !Reachable(grid, start, destination)
    ensures reached ==> destination == start || destination in written
    ensures LinkedMap(grid', start, written)
  {
    var budget := fuel;
    var open: set<Block> := {At(grid, start)};
    var closed: set<Block> := {};
    grid', written := grid, {};
    ghost var selected: set<Vector> := {};
    SearchBegins(grid, start, destination, fuel);

    while open != {}
      invariant Searching(grid, start, destination, fuel, budget, grid', open, closed, selected, written)
      decreases budget
    {
      if budget == 0 {
        return false, false, grid', written;
      }
      budget := budget - 1;
      var current := MinF(open);
      ghost var gridBefore, openBefore, closedBefore, selectedBefore, writtenBefore := grid', open, closed, selected, written;
      closed := closed + {current};
      open := open - {current};
      selected := selected + {current.pos};
      if current.pos == destination {
        return true, true, grid', written;
      }
      grid', open, written := Expand(grid, grid', open, closed, current, destination, start, written);
      ClosedSelected(closedBefore, current, selectedBefore, destination);
      ExpandExplores(grid, gridBefore, closed, selected, openBefore - {current}, open, current, destination);
      SearchExpands(grid, start, destination, fuel, budget, gridBefore, openBefore, closedBefore, selectedBefore,
                    writtenBefore, current, grid', open, written);
    }
    ExhaustedIsUnreachable(grid, selected, start, destination);
    return true, false, grid', written;
  }

  /**
    The search loop's state: the grid and the open set are sound and linked,
    every closed block was selected, the destination was not, `start` was
    selected or is still open, and every selected cell is explored. While
    `start` is the destination, nothing has been written or spent and every
    open block sits at `start`.
   */
  ghost predicate Searching(grid: Map, start: Vector, destination: Vector, fuel: nat, budget: nat, grid': Map,
                            open: set<Block>, closed: set<Block>, selected: set<Vector>, written: set<Vector>)
    requires WellFormed(grid) && InGrid(start)
  {
    && SoundMap(grid, grid') && (forall b | b in open :: Sound(grid, b))
    && (start == destination ==> grid' == grid && budget == fuel && forall b | b in open :: b.pos == start)
    && LinkedMap(grid', start, written) && (forall b | b in open :: Linked(start, written, b))
    && (forall b | b in closed :: b.pos in selected)
    && destination !in selected
    && (start in selected || At(grid, start) in open)
    && Explored(grid, selected, selected, open)
  }

  /** The search loop's state before the first selection. */
  lemma SearchBegins(grid: Map, start: Vector, destination: Vector, fuel: nat)
    requires WellFormed(grid) && InGrid(start)
    ensures Searching(grid, start, destination, fuel, fuel, grid, {At(grid, start)}, {}, {}, {})
  {
    InputIsSound(grid, start);
    assert && SoundMap(grid, grid) && (forall b | b in {At(grid, start)} :: Sound(grid, b))
           && (start == destination ==> forall b | b in {At(grid, start)} :: b.pos == start)
           && LinkedMap(grid, start, {}) && (forall b | b in {At(grid, start)} :: Linked(start, {}, b))
           && At(grid, start) in {At(grid, start)} && Explored(grid, {}, {}, {At(grid, start)});
  }

  /** Selecting `current` short of the destination and expanding it keeps the search loop's state. */
  lemma SearchExpands(grid: Map, start: Vector, destination: Vector, fuel: nat, budget: nat,
                      gridBefore: Map, open: set<Block>, closed: set<Block>, selected: set<Vector>,
                      written: set<Vector>, current: Block, grid': Map, open': set<Block>, written': set<Vector>)
    requires WellFormed(grid) && InGrid(start)
    requires Searching(grid, start, destination, fuel, budget + 1, gridBefore, open, closed, selected, written)
    requires current in open && current.pos != destination
    requires SoundMap(grid, grid') && forall b | b in open' :: Sound(grid, b)
    requires open - {current} <= open' && Explored(grid, {current.pos}, selected + {current.pos}, open')
    requires LinkedMap(grid', start, written') && forall b | b in open' :: Linked(start, written', b)
    ensures Searching(grid, start, destination, fuel, budget, grid', open', closed + {current},
                      selected + {current.pos}, written')
  {
    StartNotDestination(start, destination, open, current);
    ClosedSelected(closed, current, selected, destination);
    StartSelectedOrOpen(grid, start, open, current, selected, open');
    ExpandKeepsExplored(grid, selected, open, current, open');
    SearchingIntro(grid, start, destination, fuel, budget, grid', open', closed + {current},
                   selected + {current.pos}, written');
  }

  /** The search loop's state, conjunct by conjunct. */
  lemma SearchingIntro(grid: Map, start: Vector, destination: Vector, fuel: nat, budget: nat, grid': Map,
                       open: set<Block>, closed: set<Block>, selected: set<Vector>, written: set<Vector>)
    requires WellFormed(grid) && InGrid(start)
    requires SoundMap(grid, grid') && (forall b | b in open :: Sound(grid, b))
    requires start == destination ==> grid' == grid && budget == fuel && forall b | b in open :: b.pos == start
    requires LinkedMap(grid', start, written) && (forall b | b in open :: Linked(start, written, b))
    requires (forall b | b in closed :: b.pos in selected) && destination !in selected
    requires start in selected || At(grid, start) in open
    requires Explored(grid, selected, selected, open)
    ensures Searching(grid, start, destination, fuel, budget, grid', open, closed, selected, written)
  {
  }

  /** While `start` is the destination every open block sits there, so a block elsewhere means they differ. */
  lemma StartNotDestination(start: Vector, destination: Vector, open: set<Block>, current: Block)
    requires start == destination ==> forall b | b in open :: b.pos == start
    requires current in open && current.pos != destination
    ensures start != destination
  {
  }

  /** Closing a block short of the destination keeps every closed block selected and the destination not. */
  lemma ClosedSelected(closed: set<Block>, current: Block, selected: set<Vector>, destination: Vector)
    requires forall b | b in closed :: b.pos in selected
    requires destination !in selected && current.pos != destination
    ensures forall b | b in closed + {current} :: b.pos in selected + {current.pos}
    ensures destination !in selected + {current.pos}
  {
  }

  /** `start` stays selected or open when `current` moves from the open set to the selected cells. */
  lemma StartSelectedOrOpen(grid: Map, start: Vector, open: set<Block>, current: Block, selected: set<Vector>,
                            open': set<Block>)
    requires WellFormed(grid) && InGrid(start) && open - {current} <= open'
    requires start in selected || At(grid, start) in open
    ensures start in selected + {current.pos} || At(grid, start) in open'
  {
    if start !in selected {
      if At(grid, start) == current {
        assert current.pos == start;
      } else {
        assert At(grid, start) in open - {current};
      }
    }
  }

  /** Every cell of a parent chain in a linked grid that ends at a written destination is written. */
  lemma {:induction false} ChainInWritten(m: Map, path: seq<Vector>, start: Vector, destination: Vector,
                                          written: set<Vector>, i: nat)
    requires IsGrid(m) && LinkedMap(m, start, written) && IsParentChain(m, path, start, destination)
    requires destination == start || destination in written
    requires i < |path|
    ensures path[i] in written
    decreases i
  {
    if i > 0 {
      ChainInWritten(m, path, start, destination, written, i - 1);
      assert Linked(start, written, At(m, path[i - 1]));
      assert path[i] == ParentOf(m, path[i - 1]);
    }
  }

  /**
    A parent chain through cells the search wrote is a walk: no cell is a
    wall and every link, the one into `start` included, is a wrapped unit step.
   */
  lemma ChainIsWalk(m0: Map, m: Map, path: seq<Vector>, start: Vector, destination: Vector, written: set<Vector>)
    requires IsGrid(m0) && IsGrid(m) && LinkedMap(m, start, written) && IsParentChain(m, path, start, destination)
    requires destination == start || destination in written
    requires forall y, x | 0 <= y < GridRows && 0 <= x < GridCols :: m[y][x].isWall == m0[y][x].isWall
    ensures forall i | 0 <= i < |path| :: !At(m0, path[i]).isWall
    ensures forall i | 0 <= i < |path| - 1 :: IsWrappedStep(path[i + 1], path[i])
    ensures |path| > 0 ==> IsWrappedStep(start, path[|path| - 1])
  {
    forall i | 0 <= i < |path|
      ensures !At(m0, path[i]).isWall && IsWrappedStep(ParentOf(m, path[i]), path[i])
    {
      ChainInWritten(m, path, start, destination, written, i);
      assert Linked(start, written, At(m, path[i]));
    }
    forall i | 0 <= i < |path| - 1
      ensures IsWrappedStep(path[i + 1], path[i])
    {
      assert path[i + 1] == ParentOf(m, path[i]);
    }
  }

  /**
    `find_path`: the search loop, then the walk from the destination
    through parent pointers back to `start`. `fuel` bounds the search loop
    and `walkFuel` the walk; `None` means one of them ran out, where the
    source would not return.
   */
  method FindPath(grid: Map, start: Vector, destination: Vector, fuel: nat, walkFuel: nat)
      returns (path: Option<seq<Vector>>, grid': Map)
    requires WellFormed(grid) && InGrid(start) && InGrid(destination)
    ensures WellFormed(grid')
    ensures forall y, x | 0 <= y < GridRows && 0 <= x < GridCols :: grid'[y][x].isWall == grid[y][x].isWall
    ensures start == destination && fuel > 0 ==> path == Some([])
    ensures start == destination && fuel > 0 ==> forall y | 0 <= y < GridRows :: grid'[y] == grid[y]
    ensures path.Some? ==> (path.value == [] <==> start == destination)
    ensures path.Some? ==> IsParentChain(grid', path.value, start, destination)
    ensures path.Some? ==> forall i, j | 0 <= i < j < |path.value| :: path.value[i] != path.value[j]
    ensures path.Some? ==> forall i {:trigger ParentOf(grid, path.value[i])} | 0 <= i < |path.value| - 1 ::
      path.value[i + 1] == ParentOf(grid, path.value[i]) || IsWrappedStep(path.value[i + 1], path.value[i])
    ensures path.Some? && |path.value| > 0 ==>
      var last := path.value[|path.value| - 1];
      start == ParentOf(grid, last) || IsWrappedStep(start, last)
    ensures path.Some? && Reachable(grid, start, destination) ==>
      && (forall i | 0 <= i < |path.value| :: !At(grid, path.value[i]).isWall)
      && (forall i | 0 <= i < |path.value| - 1 :: IsWrappedStep(path.value[i + 1], path.value[i]))
      && (|path.value| > 0 ==> IsWrappedStep(start, path.value[|path.value| - 1]))
  {
    var finished, reached;
    ghost var written;
    finished, reached, grid', written := Search(grid, start, destination, fuel);
    if !finished {
      return None, grid';
    }
    SoundKeepsWalls(grid, grid');
    path := WalkParents(grid', start, destination, walkFuel);
    if start == destination {
      // The walk is empty: nothing to say about its links.
      assert path.Some? ==> |path.value| == 0;
      return;
    }
    if path.Some? {
      ChainSteps(grid, grid', path.value, start, destination);
      ParentChainIsSimpleAll(grid', path.value, start, destination);
      if reached {
        ChainIsWalk(grid, grid', path.value, start, destination, written);
      }
    }
  }
}

=== FILE: game.dfy ===
/**
  The non-drawing half of src/game.rs: the occupancy grid handed to the
  pathfinder, and one tick of the game loop (plan a route when one is due,
  move, eat and respawn the food, detect a self-collision).
 */
module GameRules {
  import opened Constants
  import opened Utils
  import opened SnakeRules
  import AStar

  datatype GameState = Ready | Running | GameOver

  /**
    The game's decision state. The window, the event pump and the food's
    random generator are not part of it; the food is just its position.
   */
  datatype Game = Game(state: GameState, snake: Snake, food: Vector, astar: bool)

  /** A fresh grid cell at (x, y): `Block::new(0, 0)` with its position filled in. */
  function FreshCell(x: int, y: int): Block
  {
    NewBlock(0, 0).(pos := Vector(x, y))
  }

  /** The fresh cell `make_map` builds is the block `Block::new(x, y)` would give. */
  lemma FreshCellIsNewBlock(x: int, y: int)
    ensures FreshCell(x, y) == NewBlock(x, y)
  {
  }

  /** Every cell keeps the defaults of a fresh block apart from the wall flag. */
  ghost predicate FreshApartFromWalls(m: Map)
    requires IsGrid(m)
  {
    forall y, x | 0 <= y < GridRows && 0 <= x < GridCols :: m[y][x] == FreshCell(x, y).(isWall := m[y][x].isWall)
  }

  /**
    `make_map`: a GridRows by GridCols grid of fresh cells at their own
    coordinates, with a wall under every body part. A part off the grid
    (the placeholder `grow` appends) names no cell and is skipped.
   */
  method MakeMap(body: seq<Vector>) returns (m: Map)
    ensures WellFormed(m)
    ensures forall y, x | 0 <= y < GridRows && 0 <= x < GridCols ::
      m[y][x].isWall <==> Vector(x, y) in body
    ensures forall y, x | 0 <= y < GridRows && 0 <= x < GridCols ::
      m[y][x].pos == Vector(x, y) && m[y][x].parentPos == Vector(0, 0)
      && !m[y][x].isClosed && m[y][x].g == 0 && m[y][x].f == 0
    ensures |body| > 0 && InGrid(body[0]) ==> At(m, body[0]).isWall
  {
    m := seq(GridRows, y => seq(GridCols, x => FreshCell(x, y)));
    var i := 0;
    while i < |body|
      invariant 0 <= i <= |body|
      invariant IsGrid(m) && FreshApartFromWalls(m)
      invariant forall y, x | 0 <= y < GridRows && 0 <= x < GridCols ::
        m[y][x].isWall <==> Vector(x, y) in body[..i]
    {
      var part := body[i];
      if 0 <= part.y < |m| && 0 <= part.x < |m[part.y]| {
        m := m[part.y := m[part.y][part.x := m[part.y][part.x].(isWall := true)]];
      }
      assert body[..i + 1] == body[..i] + [part];
      i := i + 1;
    }
    assert body[..i] == body;
  }

  /**
    The route decision at the top of `update`: only in pathfinding mode and
    only when the snake's route is used up is the pathfinder's answer
    consulted; a route is installed, and no route ends the game.
   */
  function Plan(g: Game, found: Option<seq<Vector>>): (r: Game)
    ensures r.snake.body == g.snake.body && r.food == g.food && r.astar == g.astar
    ensures !(g.astar && ShouldFindPath(g.snake)) ==> r == g
    ensures g.astar && ShouldFindPath(g.snake) && found.Some? ==> r == g.(snake := g.snake.(path := found.value))
    ensures g.astar && ShouldFindPath(g.snake) && found.None? ==> r == g.(state := GameOver)
  {
    if g.astar && ShouldFindPath(g.snake) then
      match found
      case Some(path) => g.(snake := SetPath(g.snake, path))
      case None => g.(state := GameOver)
    else g
  }

  /** The pathfinder's answer matters only when a route is due. */
  lemma PlanConsultsOnlyWhenDue(g: Game, found: Option<seq<Vector>>, other: Option<seq<Vector>>)
    ensures Plan(g, found) != Plan(g, other) ==> g.astar && g.snake.path == []
    ensures g.astar && g.snake.path == [] && g.state != GameOver && found != other ==>
      Plan(g, found) != Plan(g, other)
  {
  }

  /**
    The respawn loop of `update`: while the food lies under the snake, draw
    a new position. `draws` is the sequence of positions the random
    generator would produce; `None` means it ran out before a free cell.
   */
  function Respawn(body: seq<Vector>, food: Vector, draws: seq<Vector>): (r: Option<Vector>)
    ensures food !in body ==> r == Some(food)
    ensures r.Some? ==> r.value !in body && (r.value == food || r.value in draws)
    ensures r.None? <==> food in body && forall d | d in draws :: d in body
    decreases |draws|
  {
    if food !in body then Some(food)
    else if |draws| == 0 then None
    else
      assert forall d | d in draws :: d == draws[0] || d in draws[1..];
      Respawn(body, draws[0], draws[1..])
  }

  /** A respawned food that is not the original is the first draw clear of the body. */
  lemma {:induction false} RespawnPicksFirstFree(body: seq<Vector>, food: Vector, draws: seq<Vector>)
    ensures var r := Respawn(body, food, draws);
      r.Some? && r.value != food ==>
        exists k | 0 <= k < |draws| :: r.value == draws[k] && forall j | 0 <= j < k :: draws[j] in body
    decreases |draws|
  {
    var r := Respawn(body, food, draws);
    if r.Some? && r.value != food {
      assert food in body && |draws| > 0;
      if r.value != draws[0] {
        RespawnPicksFirstFree(body, draws[0], draws[1..]);
        var k :| 0 <= k < |draws[1..]| && r.value == draws[1..][k] && forall j | 0 <= j < k :: draws[1..][j] in body;
        assert r.value == draws[k + 1] && forall j | 0 <= j < k + 1 :: draws[j] in body;
      }
    }
  }

  /** The food check after the move: `check_collision_with_head` against the food. */
  function Ate(g: Game, found: Option<seq<Vector>>): (r: bool)
    requires |g.snake.body| > 0
    ensures r <==> CollidesWithHead(Update(Plan(g, found).snake, g.astar), g.food)
  {
    Update(Plan(g, found).snake, g.astar).body[0] == g.food
  }

  /**
    One call of `update`: plan, move, eat (respawning the food and growing)
    and end the game on a self-collision. `found` is the pathfinder's answer
    on this tick's grid; `draws` feeds the respawn loop.
   */
  function Tick(g: Game, found: Option<seq<Vector>>, draws: seq<Vector>): (r: Option<Game>)
    requires |g.snake.body| > 0
    requires forall d | d in draws :: InGrid(d)
    ensures var moved := Update(Plan(g, found).snake, g.astar);
      r.None? <==> Ate(g, found) && forall d | d in draws :: d in moved.body
    ensures var moved := Update(Plan(g, found).snake, g.astar);
      r.Some? ==>
        && r.value.astar == g.astar
        && r.value.snake.path == moved.path
        && r.value.snake.direction == moved.direction
        && r.value.snake.currentDirection == moved.currentDirection
        && r.value.snake.body == (if Ate(g, found) then moved.body + [Placeholder] else moved.body)
        && r.value.snake.score == g.snake.score + (if Ate(g, found) then 1 else 0)
        && (Ate(g, found) ==> InGrid(r.value.food) && r.value.food !in moved.body)
        && (!Ate(g, found) ==> r.value.food == g.food)
        && (r.value.state == GameOver <==> SelfCollision(moved) || Plan(g, found).state == GameOver)
        && (r.value.state != GameOver ==> r.value.state == g.state)
  {
    var planned := Plan(g, found);
    var moved := Update(planned.snake, g.astar);
    var afterMove := planned.(snake := moved);
    if CollidesWithHead(moved, afterMove.food) then
      match Respawn(moved.body, afterMove.food, draws)
      case None => None
      case Some(food) =>
        GrowKeepsSelfCollision(moved);
        Some(CheckSelfCollision(afterMove.(food := food, snake := Grow(moved))))
    else
      Some(CheckSelfCollision(afterMove))
  }

  /** The check at the end of `update`: a head inside the body ends the game. */
  function CheckSelfCollision(g: Game): (r: Game)
    requires |g.snake.body| > 0
    ensures r.(state := g.state) == g
    ensures r.state == (if SelfCollision(g.snake) then GameOver else g.state)
  {
    if SelfCollision(g.snake) then g.(state := GameOver) else g
  }

  /**
    After a move the head is never the placeholder, since one of its
    coordinates is always wrapped into range; so growing cannot create or
    hide a self-collision.
   */
  lemma GrowKeepsSelfCollision(moved: Snake)
    requires |moved.body| > 0 && moved.body[0] != Placeholder
    ensures SelfCollision(Grow(moved)) == SelfCollision(moved)
  {
    var grown := Grow(moved);
    if SelfCollision(grown) {
      var i :| 1 <= i < |grown.body| && grown.body[i] == grown.body[0];
      assert i < |moved.body|;
      assert moved.body[i] == moved.body[0];
    }
    if SelfCollision(moved) {
      var i :| 1 <= i < |moved.body| && moved.body[i] == moved.body[0];
      assert grown.body[i] == grown.body[0];
    }
  }

  /** Once the game is over, a tick keeps it over. */
  lemma GameOverIsFinal(g: Game, found: Option<seq<Vector>>, draws: seq<Vector>)
    requires |g.snake.body| > 0 && forall d | d in draws :: InGrid(d)
    requires g.state == GameOver
    ensures var r := Tick(g, found, draws); r.Some? ==> r.value.state == GameOver
  {
  }

  /**
    Food that is on the grid and clear of the snake stays so across a tick:
    either the head missed it and the body only advanced into cells it
    held, or it was eaten and the respawn found a free grid cell.
   */
  lemma {:induction false} TickKeepsFoodClear(g: Game, found: Option<seq<Vector>>, draws: seq<Vector>)
    requires |g.snake.body| > 0 && forall d | d in draws :: InGrid(d)
    requires InGrid(g.food) && g.food !in g.snake.body
    ensures var r := Tick(g, found, draws);
      r.Some? ==> InGrid(r.value.food) && r.value.food !in r.value.snake.body
  {
    var r := Tick(g, found, draws);
    var moved := Update(Plan(g, found).snake, g.astar);
    if r.Some? && !Ate(g, found) {
      forall i | 0 <= i < |moved.body|
        ensures moved.body[i] != g.food
      {
        if i > 0 {
          assert moved.body[i] == g.snake.body[i - 1];
        }
      }
    }
  }

  /**
    A route of in-grid cells avoiding the head, installed by the planning
    step, is still such a route after the move pops its last cell.
   */
  lemma TickKeepsRoute(g: Game, route: seq<Vector>, draws: seq<Vector>)
    requires |g.snake.body| > 0 && forall d | d in draws :: InGrid(d)
    requires g.astar && g.snake.path == []
    requires forall i | 0 <= i < |route| :: InGrid(route[i]) && route[i] != g.snake.body[0]
    ensures var r := Tick(g, Some(route), draws);
      r.Some? ==> forall i | 0 <= i < |r.value.snake.path| ::
        InGrid(r.value.snake.path[i]) && r.value.snake.path[i] != g.snake.body[0]
  {
    var moved := Update(Plan(g, Some(route)).snake, g.astar);
    assert |route| > 0 ==> moved.path == route[..|route| - 1];
  }

  /** `grid` is the snapshot `make_map` builds for `body`: well formed, with a wall exactly under each body part. */
  ghost predicate Snapshot(body: seq<Vector>, grid: Map)
  {
    && WellFormed(grid)
    && forall y, x | 0 <= y < GridRows && 0 <= x < GridCols :: grid[y][x].isWall <==> Vector(x, y) in body
  }

  /**
    The shape of a route from the head to the food of `g`: it lies on the
    grid and avoids the head, is empty exactly when the head is on the
    food, and otherwise starts at the food.
   */
  predicate RouteShape(g: Game, route: seq<Vector>)
    requires |g.snake.body| > 0
  {
    && (route == [] <==> g.snake.body[0] == g.food)
    && (|route| > 0 ==> route[0] == g.food)
    && (forall i | 0 <= i < |route| :: InGrid(route[i]) && route[i] != g.snake.body[0])
  }

  /**
    A route found on the snapshot `grid` of `g`: when the food can be
    reached, it runs over cells clear of the body, in wrapped unit steps
    back to the head.
   */
  ghost predicate RouteOnSnapshot(g: Game, grid: Map, route: seq<Vector>)
    requires |g.snake.body| > 0 && IsGrid(grid)
  {
    InGrid(g.snake.body[0]) && AStar.Reachable(grid, g.snake.body[0], g.food) ==>
      && (forall i | 0 <= i < |route| :: route[i] !in g.snake.body)
      && (forall i | 0 <= i < |route| - 1 :: IsWrappedStep(route[i + 1], route[i]))
      && (|route| > 0 ==> IsWrappedStep(g.snake.body[0], route[|route| - 1]))
  }

  /**
    The route request at the top of `update`: snapshot the grid from the
    body with `make_map` and run `find_path` from the head to the food.
    `grid` is the snapshot that was searched.
   */
  method FindRoute(g: Game, fuel: nat, walkFuel: nat) returns (found: Option<seq<Vector>>, ghost grid: Map)
    requires |g.snake.body| > 0 && InGrid(g.snake.body[0]) && InGrid(g.food)
    ensures found.Some? ==> RouteShape(g, found.value)
    ensures Snapshot(g.snake.body, grid)
    ensures found.Some? ==> RouteOnSnapshot(g, grid, found.value)
  {
    var snapshot := MakeMap(g.snake.body);
    var searched;
    found, searched := AStar.FindPath(snapshot, g.snake.body[0], g.food, fuel, walkFuel);
    grid := snapshot;
    if found.Some? && AStar.Reachable(grid, g.snake.body[0], g.food) {
      forall i | 0 <= i < |found.value|
        ensures found.value[i] !in g.snake.body
      {
        var v := found.value[i];
        assert !grid[v.y][v.x].isWall;
      }
    }
  }

  /**
    The tick with the pathfinder in place: when a route is due, ask
    `FindRoute` for one, then tick with its answer. Exhausted fuel takes
    the no-route branch. `found` is the pathfinder's answer (`None` when
    none was asked for) and `grid` the snapshot it searched.
   */
  method Step(g: Game, fuel: nat, walkFuel: nat, draws: seq<Vector>)
      returns (r: Option<Game>, ghost found: Option<seq<Vector>>, ghost grid: Map)
    requires |g.snake.body| > 0 && InGrid(g.snake.body[0]) && InGrid(g.food)
    requires forall d | d in draws :: InGrid(d)
    ensures r == Tick(g, found, draws)
    ensures !(g.astar && g.snake.path == []) ==> found == None
    ensures found.Some? ==> RouteShape(g, found.value)
    ensures g.astar && g.snake.path == [] ==>
      Snapshot(g.snake.body, grid) && (found.Some? ==> RouteOnSnapshot(g, grid, found.value))
    ensures r.Some? && r.value.state != GameOver && g.astar && g.snake.path == [] ==>
      forall i | 0 <= i < |r.value.snake.path| ::
        InGrid(r.value.snake.path[i]) && r.value.snake.path[i] != g.snake.body[0]
  {
    if g.astar && ShouldFindPath(g.snake) {
      var answer;
      answer, grid := FindRoute(g, fuel, walkFuel);
      found := answer;
      if answer.Some? {
        TickKeepsRoute(g, answer.value, draws);
      }
      r := Tick(g, answer, draws);
    } else {
      found, grid := None, [];
      r := Tick(g, None, draws);
    }
  }
}

=== FILE: snake.dfy ===
/**
  The movement rules of src/snake.rs as a pure state transition: choosing a
  heading from the next path cell, the no-reverse rule, shifting the body,
  moving the head with wrap-around, the collision tests and growth.
 */
module SnakeRules {
  import opened Constants
  import opened Utils

  /**
    The snake: `body[0]` is the head, `direction` the requested heading,
    `currentDirection` the heading actually taken, `path` the remaining
    pathfinder route, consumed from its end.
   */
  datatype Snake = Snake(body: seq<Vector>, direction: Direction, currentDirection: Direction,
                         path: seq<Vector>, score: nat)

  /** Every body part lies on the grid. */
  predicate OnGrid(s: Snake)
  {
    forall i | 0 <= i < |s.body| :: InGrid(s.body[i])
  }

  /** `Snake::new`: one segment in the middle of the grid, heading right, no route, no score. */
  function NewSnake(): (s: Snake)
    ensures s.body == [Vector(GridCols / 2, GridRows / 2)] && OnGrid(s)
    ensures s.direction == Right && s.currentDirection == Right
    ensures s.path == [] && s.score == 0
  {
    Snake([Vector(32, 18)], Right, Right, [], 0)
  }

  /** `should_find_path`: a new route is wanted exactly when the old one is used up. */
  function ShouldFindPath(s: Snake): (r: bool)
    ensures r <==> |s.path| == 0
  {
    s.path == []
  }

  /** After `set_path` a new route is wanted exactly when the route installed is empty. */
  lemma SetPathThenShouldFindPath(s: Snake, path: seq<Vector>)
    ensures ShouldFindPath(SetPath(s, path)) <==> path == []
  {
  }

  /** `set_path`: replace the route and nothing else. */
  function SetPath(s: Snake, path: seq<Vector>): (r: Snake)
    ensures r.path == path
    ensures r.(path := s.path) == s
  {
    s.(path := path)
  }

  /**
    The head after one move in direction `d`: the source negates a sign
    (`1` for up and left, `-1` for down and right) times `Speed` and wraps.
   */
  function MoveHead(head: Vector, d: Direction): (h: Vector)
    ensures (d == Up || d == Down) ==> h.x == head.x && 0 <= h.y < GridRows
    ensures (d == Left || d == Right) ==> h.y == head.y && 0 <= h.x < GridCols
    ensures d == Up ==> h.y == WrapY(head.y - 1)
    ensures d == Down ==> h.y == WrapY(head.y + 1)
    ensures d == Left ==> h.x == WrapX(head.x - 1)
    ensures d == Right ==> h.x == WrapX(head.x + 1)
    ensures InGrid(head) ==> InGrid(h) && IsWrappedStep(head, h)
  {
    var sign := match d
      case Up | Left => 1
      case Down | Right => -1;
    match d
    case Up | Down => head.(y := WrapY(head.y - sign * Speed))
    case Right | Left => head.(x := WrapX(head.x - sign * Speed))
  }

  /** The four moves from an in-grid head are pairwise different cells. */
  lemma MovesAreDistinct(head: Vector, d: Direction, e: Direction)
    requires InGrid(head) && d != e
    ensures MoveHead(head, d) != MoveHead(head, e)
  {
    StepCases(head);
  }

  /**
    `get_direction`: the heading that takes the head to `newPosition`. Same
    column: up when `newPosition` is the wrapped cell above, otherwise down.
    Same row: left when it is the wrapped cell to the left, otherwise right.
    Neither: keep the current heading.
   */
  function GetDirection(s: Snake, newPosition: Vector): (d: Direction)
    requires |s.body| > 0
    ensures var head := s.body[0];
      && (head.x == newPosition.x ==> (d == Up || d == Down))
      && (head.x != newPosition.x && head.y == newPosition.y ==> (d == Left || d == Right))
      && (head.x != newPosition.x && head.y != newPosition.y ==> d == s.currentDirection)
  {
    var head := s.body[0];
    if head.x == newPosition.x then
      if WrapY(head.y - 1) == newPosition.y then Up else Down
    else if head.y == newPosition.y then
      if WrapX(head.x - 1) == newPosition.x then Left else Right
    else
      s.currentDirection
  }

  /** Reading the heading back from a one-cell move recovers the move's direction. */
  lemma GetDirectionInvertsMove(s: Snake, d: Direction)
    requires |s.body| > 0 && InGrid(s.body[0])
    ensures GetDirection(s, MoveHead(s.body[0], d)) == d
  {
    StepCases(s.body[0]);
  }

  /** For a cell one wrapped step from the head, the chosen heading moves the head onto it. */
  lemma GetDirectionReachesStep(s: Snake, target: Vector)
    requires |s.body| > 0 && InGrid(s.body[0]) && IsWrappedStep(s.body[0], target)
    ensures MoveHead(s.body[0], GetDirection(s, target)) == target
  {
    StepCases(s.body[0]);
  }

  /**
    `update_body`: every segment takes the place of the one before it, then
    the head moves one cell in the current heading.
   */
  function UpdateBody(s: Snake): (r: Snake)
    requires |s.body| > 0
    ensures |r.body| == |s.body|
    ensures forall i | 1 <= i < |r.body| :: r.body[i] == s.body[i - 1]
    ensures r.body[0] == MoveHead(s.body[0], s.currentDirection)
    ensures r.(body := s.body) == s
  {
    var shifted := [s.body[0]] + s.body[..|s.body| - 1];
    s.(body := shifted[0 := MoveHead(shifted[0], s.currentDirection)])
  }

  /**
    `update`: in pathfinding mode take the route's last cell and steer
    towards it (towards the origin when the route is empty); adopt the
    requested heading unless it reverses the current one; then move.
   */
  function Update(s: Snake, astar: bool): (r: Snake)
    requires |s.body| > 0
    ensures |r.body| == |s.body| && r.score == s.score
    ensures astar && |s.path| > 0 ==> r.path == s.path[..|s.path| - 1]
    ensures !astar || |s.path| == 0 ==> r.path == s.path
    ensures astar ==> r.direction == GetDirection(s, if |s.path| > 0 then s.path[|s.path| - 1] else Vector(0, 0))
    ensures !astar ==> r.direction == s.direction
    ensures r.currentDirection == (if r.direction != Opposite(s.currentDirection) then r.direction else s.currentDirection)
    ensures r.currentDirection != Opposite(s.currentDirection)
    ensures forall i | 1 <= i < |r.body| :: r.body[i] == s.body[i - 1]
    ensures r.body[0] == MoveHead(s.body[0], r.currentDirection)
  {
    var steered :=
      if astar then
        if |s.path| > 0 then
          s.(direction := GetDirection(s, s.path[|s.path| - 1]), path := s.path[..|s.path| - 1])
        else
          s.(direction := GetDirection(s, Vector(0, 0)))
      else s;
    var turned :=
      if steered.direction != Opposite(steered.currentDirection) then
        steered.(currentDirection := steered.direction)
      else steered;
    UpdateBody(turned)
  }

  /**
    Following the route: when the route's last cell is one wrapped step from
    the head, the head lands on it, unless reaching it would reverse the
    snake, in which case the head carries straight on.
   */
  lemma UpdateFollowsPath(s: Snake)
    requires |s.body| > 0 && InGrid(s.body[0]) && |s.path| > 0
    requires IsWrappedStep(s.body[0], s.path[|s.path| - 1])
    ensures var target, d := s.path[|s.path| - 1], GetDirection(s, s.path[|s.path| - 1]);
      Update(s, true).body[0] == (if d != Opposite(s.currentDirection) then target else MoveHead(s.body[0], s.currentDirection))
  {
    GetDirectionReachesStep(s, s.path[|s.path| - 1]);
  }

  /** A snake on the grid stays on the grid when it moves. */
  lemma UpdateKeepsOnGrid(s: Snake, astar: bool)
    requires |s.body| > 0 && OnGrid(s)
    ensures OnGrid(Update(s, astar))
  {
    var r := Update(s, astar);
    forall i | 0 <= i < |r.body|
      ensures InGrid(r.body[i])
    {
      if i > 0 {
        assert r.body[i] == s.body[i - 1];
      }
    }
  }

  /** `check_collision_with_head`: is `position` the head's cell? */
  function CollidesWithHead(s: Snake, position: Vector): (r: bool)
    requires |s.body| > 0
    ensures r <==> Equals(s.body[0], position)
  {
    s.body[0] == position
  }

  /** `check_collision_with_snake`: does any segment occupy `position`? */
  function CollidesWithSnake(s: Snake, position: Vector): (r: bool)
    ensures r <==> exists i | 0 <= i < |s.body| :: s.body[i] == position
  {
    position in s.body
  }

  /** `check_self_collision`: does the head share its cell with a later segment? */
  function SelfCollision(s: Snake): (r: bool)
    requires |s.body| > 0
    ensures r <==> exists i | 1 <= i < |s.body| :: s.body[i] == s.body[0]
  {
    var head := s.body[0];
    var rest := s.body[1..];
    assert forall i | 1 <= i < |s.body| :: s.body[i] == rest[i - 1];
    head in rest
  }

  /** The grow placeholder: a cell off the grid, overwritten by the next move. */
  const Placeholder: Vector := Vector(-1, -1)

  /** `grow`: append an off-grid placeholder segment and score a point. */
  function Grow(s: Snake): (r: Snake)
    ensures r.body == s.body + [Placeholder] && !InGrid(r.body[|r.body| - 1])
    ensures r.score == s.score + 1
    ensures r.(body := s.body, score := s.score) == s
  {
    s.(body := s.body + [Placeholder], score := s.score + 1)
  }

  /**
    The placeholder never survives a move: after growing and moving, the
    body is the new head followed by the whole old body, so a snake on the
    grid is back on the grid, one segment longer.
   */
  lemma {:induction false} GrowThenUpdate(s: Snake, astar: bool)
    requires |s.body| > 0
    ensures Update(Grow(s), astar).body == [Update(Grow(s), astar).body[0]] + s.body
    ensures OnGrid(s) ==> OnGrid(Update(Grow(s), astar))
  {
    var r := Update(Grow(s), astar);
    var g := Grow(s);
    assert |r.body| == |s.body| + 1;
    forall i | 1 <= i < |r.body|
      ensures r.body[i] == s.body[i - 1]
    {
      assert r.body[i] == g.body[i - 1];
    }
    assert r.body == [r.body[0]] + s.body;
    if OnGrid(s) {
      assert InGrid(g.body[0]);
    }
  }
}

=== FILE: utils.dfy ===
/** Window and grid dimensions of the playing field (src/constants.rs). */
module Constants {
  const Width: int := 1920
  const Height: int := 1080
  const Size: int := 30
  /** Cells the head moves per tick. */
  const Speed: int := 1

  /** Number of grid columns: the window width divided by the cell size. */
  const GridCols: int := 64
  /** Number of grid rows: the window height divided by the cell size. */
  const GridRows: int := 36

  /** The grid dimensions are the window dimensions measured in cells. */
  lemma GridFromWindow()
    ensures GridCols == Width / Size && GridCols * Size == Width
    ensures GridRows == Height / Size && GridRows * Size == Height
  {
  }
}

/**
  Geometry primitives shared by the pathfinder, the snake and the game loop:
  the wrap-around macros, the `Vector` coordinate, the `Block` grid cell,
  the occupancy `Map` and the four movement `Direction`s.
 */
module Utils {
  import opened Constants

  datatype Option<T> = None | Some(value: T)

  function Abs(a: int): int { if a < 0 then -a else a }

  function Min(a: int, b: int): int { if a <= b then a else b }

  /** Product of a positive factor with a factor of at least one is at least the first. */
  lemma MulAtLeast(d: int, n: int)
    requires d >= 1 && n > 0
    ensures d * n >= n
  {
    if d > 1 {
      MulAtLeast(d - 1, n);
      assert d * n == (d - 1) * n + n;
    }
  }

  /** Euclidean remainders are unique: `q * n + k` with `0 <= k < n` has remainder `k`. */
  lemma ModUnique(a: int, n: int, q: int, k: int)
    requires n > 0 && 0 <= k < n && a == q * n + k
    ensures a % n == k
  {
    var q0, k0 := a / n, a % n;
    assert a == q0 * n + k0;
    var d := q - q0;
    assert d * n == q * n - q0 * n;
    assert d * n == k0 - k;
    if d >= 1 {
      MulAtLeast(d, n);
    } else if d <= -1 {
      MulAtLeast(-d, n);
    }
  }

  /**
    Rust's `%` on signed integers: it truncates toward zero, so the remainder
    carries the sign of the dividend (unlike Dafny's Euclidean `%`).
   */
  function RustRem(a: int, n: int): (r: int)
    requires n > 0
    ensures -n < r < n
    ensures a >= 0 ==> 0 <= r
    ensures a <= 0 ==> r <= 0
  {
    if a >= 0 then a % n else -((-a) % n)
  }

  /** Rust's remainder and Dafny's agree up to a multiple of the divisor. */
  lemma RustRemCongruent(a: int, n: int)
    requires n > 0
    ensures RustRem(a, n) % n == a % n
  {
    if a < 0 {
      var q, s := (-a) / n, (-a) % n;
      assert -a == q * n + s;
      assert RustRem(a, n) == -s;
      if s == 0 {
        assert a == (-q) * n + 0;
        ModUnique(a, n, -q, 0);
        ModUnique(-s, n, 0, 0);
      } else {
        assert a == (-q - 1) * n + (n - s);
        ModUnique(a, n, -q - 1, n - s);
        ModUnique(-s, n, -1, n - s);
      }
    }
  }

  /** Adding the extent once does not change a Euclidean remainder. */
  lemma ModShift(t: int, n: int)
    requires n > 0
    ensures (t + n) % n == t % n
  {
    var q, k := t / n, t % n;
    assert t == q * n + k;
    ModUnique(t + n, n, q + 1, k);
  }

  /** The `wrap_x!` macro: a truncating remainder, shifted up by the extent, reduced again. */
  function WrapX(v: int): (r: int)
    ensures 0 <= r < GridCols
  {
    RustRem(RustRem(v, GridCols) + GridCols, GridCols)
  }

  /** The `wrap_y!` macro. */
  function WrapY(v: int): (r: int)
    ensures 0 <= r < GridRows
  {
    RustRem(RustRem(v, GridRows) + GridRows, GridRows)
  }

  /** Both macros compute the Euclidean remainder, whatever the sign of the argument. */
  lemma WrapIsEuclidean(v: int)
    ensures WrapX(v) == v % GridCols
    ensures WrapY(v) == v % GridRows
  {
    RustRemCongruent(v, GridCols);
    ModShift(RustRem(v, GridCols), GridCols);
    RustRemCongruent(v, GridRows);
    ModShift(RustRem(v, GridRows), GridRows);
  }

  /** Near the grid, wrapping adds or subtracts the extent at most once. */
  lemma WrapNear(v: int)
    ensures -GridCols <= v < 2 * GridCols ==>
      WrapX(v) == (if v < 0 then v + GridCols else if v >= GridCols then v - GridCols else v)
    ensures -GridRows <= v < 2 * GridRows ==>
      WrapY(v) == (if v < 0 then v + GridRows else if v >= GridRows then v - GridRows else v)
  {
    WrapIsEuclidean(v);
    if -GridCols <= v < 2 * GridCols {
      if v < 0 {
        ModUnique(v, GridCols, -1, v + GridCols);
      } else if v >= GridCols {
        ModUnique(v, GridCols, 1, v - GridCols);
      } else {
        ModUnique(v, GridCols, 0, v);
      }
    }
    if -GridRows <= v < 2 * GridRows {
      if v < 0 {
        ModUnique(v, GridRows, -1, v + GridRows);
      } else if v >= GridRows {
        ModUnique(v, GridRows, 1, v - GridRows);
      } else {
        ModUnique(v, GridRows, 0, v);
      }
    }
  }

  /** Wrapping leaves an in-range coordinate alone, so wrapping twice is wrapping once. */
  lemma WrapIsIdentityInRange(v: int)
    ensures 0 <= v < GridCols ==> WrapX(v) == v
    ensures 0 <= v < GridRows ==> WrapY(v) == v
    ensures WrapX(WrapX(v)) == WrapX(v)
    ensures WrapY(WrapY(v)) == WrapY(v)
  {
    WrapNear(v);
    WrapNear(WrapX(v));
    WrapNear(WrapY(v));
  }

  /** Stepping off an edge re-enters at the opposite edge. */
  lemma WrapAcrossEdges()
    ensures WrapX(-1) == GridCols - 1 && WrapX(GridCols) == 0
    ensures WrapY(-1) == GridRows - 1 && WrapY(GridRows) == 0
  {
    WrapNear(-1);
    WrapNear(GridCols);
    WrapNear(GridRows);
  }

  datatype Vector = Vector(x: int, y: int)

  /** `impl Add`: componentwise sum; subtracting either summand gives back the other. */
  function Add(a: Vector, b: Vector): (r: Vector)
    ensures Sub(r, b) == a && Sub(r, a) == b
  {
    Vector(a.x + b.x, a.y + b.y)
  }

  /** `impl Sub`: componentwise difference, the zero vector exactly for equal operands. */
  function Sub(a: Vector, b: Vector): (r: Vector)
    ensures r == Vector(0, 0) <==> a == b
  {
    Vector(a.x - b.x, a.y - b.y)
  }

  /** Subtraction undoes addition and vice versa; addition is commutative. */
  lemma SubUndoesAdd(a: Vector, b: Vector)
    ensures Sub(Add(a, b), b) == a
    ensures Add(Sub(a, b), b) == a
    ensures Add(a, b) == Add(b, a)
  {
  }

  /** The hand-written `PartialEq`: componentwise comparison, which is exactly value equality. */
  function Equals(a: Vector, b: Vector): (r: bool)
    ensures r <==> a == b
  {
    a.x == b.x && a.y == b.y
  }

  function ManhattanDistance(v: Vector): (r: int)
    ensures r >= 0
    ensures r == 0 <==> v == Vector(0, 0)
    ensures r >= Abs(v.x) && r >= Abs(v.y)
  {
    Abs(v.x) + Abs(v.y)
  }

  /** A coordinate that indexes a cell of the grid. */
  predicate InGrid(v: Vector)
  {
    0 <= v.x < GridCols && 0 <= v.y < GridRows
  }

  /** `b` is one orthogonal unit step from `a`, wrapped around the torus. */
  predicate IsWrappedStep(a: Vector, b: Vector)
  {
    || (a.x == b.x && (b.y == WrapY(a.y + 1) || b.y == WrapY(a.y - 1)))
    || (a.y == b.y && (b.x == WrapX(a.x + 1) || b.x == WrapX(a.x - 1)))
  }

  /** Wrapped adjacency is symmetric. */
  lemma WrappedStepSymmetric(a: Vector, b: Vector)
    requires InGrid(a) && InGrid(b)
    ensures IsWrappedStep(a, b) <==> IsWrappedStep(b, a)
  {
    if IsWrappedStep(a, b) {
      WrappedStepFlips(a, b);
    }
    if IsWrappedStep(b, a) {
      WrappedStepFlips(b, a);
    }
  }

  /** One direction of the symmetry. */
  lemma WrappedStepFlips(a: Vector, b: Vector)
    requires InGrid(a) && InGrid(b) && IsWrappedStep(a, b)
    ensures IsWrappedStep(b, a)
  {
    StepCases(a);
    StepCases(b);
  }

  /** The four wrapped steps from an in-grid cell, written without remainders. */
  lemma StepCases(a: Vector)
    requires InGrid(a)
    ensures WrapX(a.x + 1) == (if a.x == GridCols - 1 then 0 else a.x + 1)
    ensures WrapX(a.x - 1) == (if a.x == 0 then GridCols - 1 else a.x - 1)
    ensures WrapY(a.y + 1) == (if a.y == GridRows - 1 then 0 else a.y + 1)
    ensures WrapY(a.y - 1) == (if a.y == 0 then GridRows - 1 else a.y - 1)
  {
    WrapNear(a.x + 1); WrapNear(a.x - 1); WrapNear(a.y + 1); WrapNear(a.y - 1);
  }

  /** A wrapped step always lands in the grid and never stays put. */
  lemma WrappedStepMoves(a: Vector, b: Vector)
    requires InGrid(a) && IsWrappedStep(a, b)
    ensures InGrid(b) && a != b
  {
  }

  /** One grid cell; equality and hashing in the source range over all six fields. */
  datatype Block = Block(pos: Vector, parentPos: Vector, isClosed: bool, isWall: bool, g: nat, f: nat)

  /** `Block::new`: an open, unvisited cell at (x, y) whose parent defaults to the origin. */
  function NewBlock(x: int, y: int): (b: Block)
    ensures b.pos == Vector(x, y) && b.parentPos == Vector(0, 0)
    ensures !b.isClosed && !b.isWall
    ensures b.g == 0 && b.f == 0
  {
    Block(Vector(x, y), Vector(0, 0), false, false, 0, 0)
  }

  /** The occupancy grid, indexed `[y][x]`. */
  type Map = seq<seq<Block>>

  /** GridRows rows of GridCols cells each. */
  predicate IsGrid(m: Map)
  {
    |m| == GridRows && forall y | 0 <= y < |m| :: |m[y]| == GridCols
  }

  function At(m: Map, v: Vector): Block
    requires IsGrid(m) && InGrid(v)
  {
    m[v.y][v.x]
  }

  /**
    The grid invariant the search relies on: every cell records its own
    coordinate, and every parent pointer names a cell of the grid.
   */
  predicate WellFormed(m: Map)
  {
    && IsGrid(m)
    && forall y, x | 0 <= y < GridRows && 0 <= x < GridCols ::
         m[y][x].pos == Vector(x, y) && InGrid(m[y][x].parentPos)
  }

  datatype Direction = Up | Down | Left | Right

  /** The `!` operator: the opposite heading. */
  function Opposite(d: Direction): (r: Direction)
    ensures r != d
    ensures (d == Up || d == Down) <==> (r == Up || r == Down)
  {
    match d
    case Up => Down
    case Down => Up
    case Left => Right
    case Right => Left
  }

  /** Reversing twice gives back the original heading. */
  lemma OppositeInvolution(d: Direction)
    ensures Opposite(Opposite(d)) == d
  {
  }
}
